=== FILE: README.md ===
# TMC2209 UART protocol, ST25DV EEPROM frames and W25Q64 status bytes

This project models the part of the embassy-buddy printer firmware that
talks to the TMC2209 stepper drivers over their single-wire UART. The
firmware carries that protocol in three revisions:

- `src/components/tmc/`: the canonical driver;
- `embassy-tmc/src/`: the stand-alone crate;
- `src/tmc2209/`: the first revision.

The model also covers two small frame builders next to it. One is the
I²C payloads of the ST25DV EEPROM; the other is the decoding of the
W25Q64 flash status registers.

The modules follow the firmware's structure:

- `Crc` (crc.dfy): the datasheet's CRC-8. Polynomial 0x07, start value 0,
  each byte taken least-significant bit first. A loop method is proved
  equal to the recursive definition. Any single changed byte or flipped
  bit of a sealed frame is detected.
- `Options` (options.dfy): the optional value the other modules share.
- `Bits` (bits.dfy): 24-bit sign extension, used by VACTUAL.
- `Registers` (registers.dfy): the register catalog. It has the read
  addresses, the write address (read address + 0x80), and the bit layout
  of every register over the 4-byte payload. The payload is a big-endian
  32-bit word with bit 0 the least significant. Pack/unpack round trips
  are proved in both directions.
- `Codec` (codec.dfy): read and write requests, and the ordered chain of
  checks that turns an 8-byte reply into a register value or an error.
- `Transport` (transport.dfy): the UART as an oracle. A send either goes
  out or fails; a receive returns bytes or times out.
- `Pins` (pins.dfy): the EN, STEP and DIR levels with the fixed direction
  mapping. Also the `try_` variants, where a busy lock leaves the pins
  untouched.
- `Exchange` (exchange.dfy): the read and IFCNT-verified write of the
  canonical driver and of `embassy-tmc`'s `Datagram::read`/`write`.
  Read-back mode means every frame sent comes back on the receive side
  before the reply. Also the canonical constructors.
- `AsyncUart` (asyncuart.dfy): `embassy-tmc`'s `TMC2209AsyncUart`. It finds
  the reply by the request's length, and it reports an unconfirmed write
  as `UsartError`.
- `Legacy` (legacy.dfy): the first revision. Its request needs no address
  check and its replies are checked by CRC only. Its write needs a strict
  counter increase, and its direction depends on the GCONF `shaft` flag.
- `Eeprom` (eeprom.dfy): ST25DV device-select codes, RF switching, reads,
  and the sequential and byte writes.
- `Flash` (flash.dfy): W25Q64 read-status instructions and the three
  status-byte layouts.

Bus I/O is modelled as an input, not performed. Each operation takes the
outcomes of its sends and receives as parameters and returns what it
sent together with its result. In a `Trace`, `sent` lists the frames
written to the UART.

Several members stand for the same code in more than one revision:

- `Pins` also covers `TMC2209Minimal` and `TMC2209AsyncUart` in
  `embassy-tmc/src/tmc2209.rs` (lines 54-90 and 150-181). It also covers the
  first revision's `enable`, `disable` and `toggle_step` (`src/tmc2209/mod.rs`
  lines 187-197).
- `Exchange.Read` and `Exchange.Write` model both the canonical driver's
  `read_register`/`write_register` and `embassy-tmc/src/datagram.rs`'s
  `Datagram::read`/`write` (lines 30-100). The frames, buffer sizes and
  checks are the same. They differ in three ways the model does not show.
  `Datagram::write` sends the counter request with `write` rather than
  `write_all` (line 68). `Datagram::read` waits 5 ms after the receive
  (line 50). Its errors name `TimeoutError` and `WriteError`.
- `Codec` covers both `Datagram` traits. `embassy-tmc/src/datagram.rs` lines
  9-27 and 103-159 build and decode the same frames.
- `Eeprom` covers both `St25dv` copies: `src/components/eeprom.rs` and
  `embassy-buddy/src/components/eeprom.rs`.
- `Legacy.ReadKind` stands for `read_ioin`, `read_gconf`, `read_ifcnt` and
  `read_pwm_conf`.

Assumptions about the layouts:

- `bytes = "k"` in a packed field is read as bits 8k..8k+7 of the payload
  word.
- The first revision's `pwm_freq` at bits `"16..17"` is read as one bit
  (bit 16); bit 17 is ignored (`Registers.PwmFreqIgnoresBit17`).
- `TCoolThrs` declares bits 0..=19 but a 24-bit type. The model keeps
  bits 0..19, so a value of 2^20 or more does not survive a write
  (`Registers.TCoolThrsLosesHighBits`).

Where `embassy-tmc/src/datagram.rs` and the canonical driver differ only
in error names, the model uses one error type: `Timeout` stands for
`TimeoutError`.

## Model

| member | source | states |
|---|---|---|
| Crc.Crc8Atm | src/components/tmc/datagram.rs:103-117 | the shift/xor loop over bytes, 8 steps per byte LSB first with polynomial 0x07 from 0, computes the CRC-8 of the whole sequence |
| Crc.AbsorbAppend | src/components/tmc/datagram.rs:103-117 | the CRC of a concatenation is the CRC of the second part continued from the state the first part left |
| Crc.SingleByteCorruptionDetected | src/components/tmc/datagram.rs:76-79 | changing any one byte of a CRC-valid frame, the CRC byte included, makes the CRC check fail |
| Crc.SingleBitFlipDetected | src/components/tmc/datagram.rs:76-79 | flipping any single bit of a CRC-valid frame makes the CRC check fail |
| Crc.IoinRequestVector | examples/x_stepper_blocking.rs:34 | the CRC of [5, 1, 6] is 217, the byte the hand-built IOIN request carries |
| Bits.SignExtendKeeps | src/components/tmc/datagram.rs:297-312 | sign-extending bit 23 leaves a value unchanged exactly when it already lies in the signed 24-bit range |
| Registers.ReadRegAddr | src/components/tmc/datagram.rs:127-396 | every register's read address lies below the write offset 0x80 |
| Registers.WriteRegAddr | src/components/tmc/datagram.rs:22-24 | the write address is the read address plus 0x80 as integers, so the u8 sum never wraps |
| Registers.KindAtReadRegAddr | src/tmc2209/registers.rs:23-38 | the register a read address stands for is recovered from that address |
| Registers.ReadRegAddrInjective | src/tmc2209/registers.rs:23-38 | different registers have different read addresses |
| Registers.KindAtWriteRegAddr | src/tmc2209/registers.rs:40-42 | a write address minus 0x80 is the read address of the same register |
| Registers.WriteAddrIsNoReadAddr | embassy-tmc/src/datagram.rs:16-18 | no write address is the read address of any register |
| Registers.Default | embassy-tmc/src/tmc2209.rs:345-415 | the default value the driver starts a read of each register from is a value of that register |
| Registers.DefaultIsZero | embassy-tmc/src/tmc2209.rs:345-415 | every default value is within its field bounds and is written as the all-zero payload |
| Registers.Pack | src/components/tmc/datagram.rs:36-63 | the payload of a value; what it promises is stated by Registers.UnpackPack, Registers.PackInLayout and Registers.PackInjective |
| Registers.Unpack | src/components/tmc/datagram.rs:237-244 | every decoded value is of the requested register and respects its field bounds (ihold, irun < 32, ihold_delay < 16, tstep and tpwm_thrs < 2^20, vactual in the signed 24-bit range, …) |
| Registers.UnpackPack | src/components/tmc/datagram.rs:36-98 | a register value within its field bounds is decoded back from the payload it is encoded as |
| Registers.PackUnpack | src/components/tmc/datagram.rs:36-98 | encoding a decoded payload gives back the payload with the bits outside the layout cleared |
| Registers.UnpackIgnoresUnused | src/components/tmc/datagram.rs:92-97 | payload bits outside a register's layout do not affect the decoded value |
| Registers.PackInLayout | src/components/tmc/datagram.rs:36-63 | an encoded value sets no bit outside its register's layout |
| Registers.PackInjective | src/components/tmc/datagram.rs:36-63 | two in-bounds values of one register with the same payload are equal |
| Registers.VActualRoundTrip | src/components/tmc/datagram.rs:297-312 | a VACTUAL velocity in the signed 24-bit range survives encode and decode, sign included |
| Registers.IHoldIRunRoundTrip | src/components/tmc/datagram.rs:237-253 | IHOLD_IRUN with ihold, irun at bits 0-4, 8-12 and ihold_delay at 16-19 is decoded back from its payload |
| Registers.ChopConfRoundTrip | src/tmc2209/registers.rs:166-187 | CHOPCONF with toff 0-3, hstrt 4-6, hend 8-10, tbl 15-16, vsense 17, mres 24-27 and flags 28-31 is decoded back from its payload |
| Registers.IoinRoundTrip | src/tmc2209/registers.rs:47-73 | IOIN with zero1 at bit 1, zero2 at bit 5 and version at bits 24-31 is decoded back from its payload |
| Registers.GconfRoundTrip | src/tmc2209/registers.rs:77-98 | GCONF's ten flags at bits 0-9, shaft at bit 3, are decoded back from their payload |
| Registers.PwmConfRoundTrip | src/tmc2209/registers.rs:191-210 | PWMCONF with pwm_ofs 0-7, pwm_grad 8-15, pwm_freq 16, flags 18-21, pwm_reg 24-27 and pwm_ilm 28-31 is decoded back from its payload |
| Registers.TCoolThrsLosesHighBits | src/components/tmc/datagram.rs:314-334 | a TCOOLTHRS value of 2^20 reads back as 0, because the layout covers bits 0-19 while the type holds 24 bits |
| Registers.PwmFreqIgnoresBit17 | src/tmc2209/registers.rs:191-210 | with pwm_freq read as bit 16 only, bit 17 of the payload does not affect the decoded PWMCONF |
| Registers.WordOfBytesOf | src/components/tmc/datagram.rs:36-63 | splitting a word into its four big-endian payload bytes and joining them again gives the word back |
| Registers.BytesOfWordOf | src/components/tmc/datagram.rs:92-97 | joining four payload bytes into a word and splitting it again gives the bytes back |
| Codec.ReadRequest | src/components/tmc/datagram.rs:27-33 | fails with InvalidDriverAddress(addr) exactly when addr > 3; otherwise the 4 bytes are sync 0x05, addr, the read address and a valid CRC |
| Codec.AsWriteRequest | src/components/tmc/datagram.rs:36-63 | the same address rule; otherwise 8 bytes: sync, addr, read address + 0x80, the encoded value big-endian, and a CRC over the first seven |
| Codec.WriteRequestCarriesValue | embassy-tmc/src/datagram.rs:103-130 | the payload of a write request decodes to the value written |
| Codec.FromDatagram | src/components/tmc/datagram.rs:72-98 | Ok exactly for a valid reply of the register, and then the value has the register's kind, fits its fields and packs to the payload bits the layout uses; otherwise the first failing check in the order length, CRC, sync byte, master address (reporting byte 0), register address; never UnpackingError |
| Codec.Update | src/components/tmc/datagram.rs:65-69 | the register is overwritten only when the reply decodes, and then by a value of the same kind that fits its fields and packs to the payload's used bits; on any error it is unchanged and the decode error is returned |
| Codec.ReplyRoundTrip | src/components/tmc/datagram.rs:72-98 | the reply frame the driver builds for an in-bounds value decodes back to that value |
| Codec.ValidReplyIsReplyFrame | embassy-tmc/src/datagram.rs:133-159 | every reply the decoder accepts is the reply frame of its own payload word |
| Codec.CorruptedReplyFailsCrc | src/components/tmc/datagram.rs:76-79 | changing any one byte of an accepted reply is reported as CrcDoesNotMatch |
| Codec.MasterAddressErrorNamesSync | src/components/tmc/datagram.rs:84-86 | a reply with a wrong master address is reported with byte 0 (the sync byte 0x05), not the offending byte 1 |
| Codec.IoinReadRequestVector | examples/x_stepper_blocking.rs:34 | the IOIN read request for driver 1 is [5, 1, 6, 217] |
| Codec.GconfReadRequestVector | src/components/tmc/datagram.rs:27-33 | the GCONF read request for driver 1 is [5, 1, 0, 0xFE] |
| Codec.IfCntReplyVector | src/components/tmc/datagram.rs:72-98 | a well-formed IFCNT reply with count 7 decodes to IfCnt(7) |
| Pins.Enable | src/components/tmc/tmc2209.rs:118-122 | afterwards the driver is enabled (EN low) and STEP and DIR are unchanged |
| Pins.Disable | src/components/tmc/tmc2209.rs:131-135 | afterwards the driver is disabled (EN high) and STEP and DIR are unchanged |
| Pins.Step | src/components/tmc/tmc2209.rs:165-169 | STEP changes level; EN and DIR are unchanged |
| Pins.GetDirection | src/components/tmc/tmc2209.rs:178-185 | the direction is clockwise exactly when DIR is high |
| Pins.SetDirection | src/components/tmc/tmc2209.rs:144-151 | reading the direction back gives the direction set; EN and STEP are unchanged |
| Pins.TryEnable | src/components/tmc/tmc2209.rs:124-128 | the lock is reported acquired exactly when it is free, and only then are the pins changed as by Enable |
| Pins.TryDisable | src/components/tmc/tmc2209.rs:137-141 | the lock is reported acquired exactly when it is free, and only then are the pins changed as by Disable |
| Pins.TryStep | src/components/tmc/tmc2209.rs:171-175 | the lock is reported acquired exactly when it is free, and only then does STEP toggle |
| Pins.TrySetDirection | src/components/tmc/tmc2209.rs:153-160 | the lock is reported acquired exactly when it is free, and only then is DIR set |
| Pins.TryGetDirection | src/components/tmc/tmc2209.rs:187-193 | the lock is reported acquired exactly when it is free, and then the direction read is the one DIR shows |
| Pins.EnableDisableSettle | embassy-tmc/src/tmc2209.rs:54-63 | enabling and disabling are idempotent, and the last of the two wins |
| Pins.StepTwiceRestores | embassy-tmc/src/tmc2209.rs:66-69 | two steps restore the original pin levels |
| Pins.SetReadDirectionKeepsPins | embassy-tmc/src/tmc2209.rs:72-90 | setting the direction that is read leaves the pins as they were |
| Pins.LastDirectionWins | embassy-tmc/src/tmc2209.rs:165-181 | setting one direction and then another is the same as setting only the second |
| Exchange.Read | src/components/tmc/tmc2209.rs:220-243 | an address above 3 sends nothing and fails with InvalidDriverAddress; otherwise one read request is sent. Ok exactly when it went out, the receive did not time out and bytes 4..12 are a valid reply of the register. A failed send is UsartError, a timeout is Timeout, and when 12 bytes arrive the result is the decode of bytes 4..12 |
| Exchange.ReadRegister | src/components/tmc/tmc2209.rs:220-243 | with a UART present, the register takes the value read on success and is unchanged on error, and the error is the one the read reports |
| Exchange.NewNoUsart | src/components/tmc/tmc2209.rs:40-49 | the driver has the given pins, address 0 and no UART |
| Exchange.NewAsyncUsart | src/components/tmc/tmc2209.rs:61-111 | fails with InvalidDriverAddress exactly when addr > 3; otherwise the driver keeps the pins and the address and has a UART |
| Exchange.SendAndCheck | embassy-tmc/src/datagram.rs:59-99 | the write frame is sent first, then the counter request only if that went out; Ok exactly when both went out, bytes 12..20 of the reply are a valid IFCNT reply, and the count shows the write applied. The second frame is the IFCNT read request. A failed send of either frame is UsartError, a timeout is Timeout, a reply that does not decode gives the decode error, and a count that shows no applied write is WriteError(before, after) |
| Exchange.Write | src/components/tmc/tmc2209.rs:246-291 | when the first counter read fails its error is returned and only its request was sent; otherwise the counter request is followed by the write frame, then come the frames and the result of the check after it (SendAndCheck) |
| Exchange.WriteSucceedsIff | embassy-tmc/src/datagram.rs:56-100 | a write succeeds exactly when the first counter read succeeds, both frames go out, the second reply is valid, and the count moved up or wrapped from 255 to 0 |
| Exchange.RejectedWriteReportsCounts | src/components/tmc/tmc2209.rs:285-291 | a counter that did not move is reported as WriteError(before, after) |
| Exchange.NoWriteWithoutCounter | embassy-tmc/src/datagram.rs:56-59 | when the first counter read fails no write frame is sent: at most the 4-byte read request went out |
| Exchange.SingleIncrementApplied | embassy-tmc/src/datagram.rs:93-99 | a counter that advanced by one, with wrap-around at 255, always confirms the write |
| Exchange.NoIncrementRejected | embassy-tmc/src/datagram.rs:93-99 | a counter that stayed or went down, other than 255 to 0, never confirms the write |
| Exchange.WriteAppliedVectors | embassy-tmc/src/datagram.rs:93-99 | (5,6), (5,9) and (255,0) confirm a write; (5,5), (6,5) and (255,1) do not |
| Exchange.ReadFromAnsweringDriver | src/components/tmc/tmc2209.rs:220-243 | whatever the 4 echoed bytes are, a driver answering with its reply frame is read as the value it holds |
| Exchange.ReadIgnoresEcho | embassy-tmc/src/datagram.rs:51-52 | the first 4 received bytes, the request's echo, do not affect the read |
| Exchange.UntouchedBufferReadsAsSyncError | src/components/tmc/tmc2209.rs:229-241 | a receive that leaves the zeroed buffer as it was is decoded, and fails as InvalidSyncByte(0) rather than as a UART error |
| Exchange.CheckAgainstCountingDriver | src/components/tmc/tmc2209.rs:253-291 | when the counter reply after the write shows count + 1, the check after the counter read succeeds |
| Exchange.WriteToCountingDriver | src/components/tmc/tmc2209.rs:246-291 | a driver that answers both counter requests and counts the write in between confirms it, also when its counter wraps |
| AsyncUart.NewAsyncUart | embassy-tmc/src/tmc2209.rs:193-212 | fails with InvalidMotorAddress exactly when addr > 3; otherwise keeps the pins and the address |
| AsyncUart.ResponseWindow | embassy-tmc/src/tmc2209.rs:289-296 | the reply sits in the 8 bytes after a 4- or 8-byte request; any other length is DatagramLength(len) |
| AsyncUart.ReadRegister | embassy-tmc/src/tmc2209.rs:265-306 | an address above 3 sends nothing and fails with InvalidDriverAddress; otherwise one read request is sent and a failed send is UsartError; the register keeps its kind, is unchanged on error, and is updated exactly when the request went out and bytes 4..12 are a valid reply |
| AsyncUart.ReadRegisterDecodesReply | embassy-tmc/src/tmc2209.rs:265-306 | once the request went out, the new register and the result are exactly those of decoding bytes 4..12 into the register |
| AsyncUart.ReadKind | embassy-tmc/src/tmc2209.rs:345-415 | read_ifcnt … read_pwmconf return a value of the register asked for, the default one on error |
| AsyncUart.WriteRegister | embassy-tmc/src/tmc2209.rs:310-343 | a success needs a valid address, the write frame sent and three frames in all; a failing first counter read is returned as is |
| AsyncUart.WriteRegisterSucceedsIff | embassy-tmc/src/tmc2209.rs:310-343 | Ok exactly when both counter reads succeed, the write frame went out and the counts show the write applied |
| AsyncUart.WriteRegisterErrors | embassy-tmc/src/tmc2209.rs:323-342 | after a good first counter read: a failed frame send is UsartError, a failing second read returns that read's own result, and an unconfirmed count is UsartError |
| AsyncUart.WriteRegisterFrames | embassy-tmc/src/tmc2209.rs:310-330 | after a good first counter read and a sent frame, exactly three frames went out: the IFCNT request, the write frame, the IFCNT request |
| AsyncUart.CounterReadSendsRequest | embassy-tmc/src/tmc2209.rs:265-286 | a counter read that succeeds had a valid address, and one to a valid address sends the one IFCNT request |
| AsyncUart.WriteRegisterDrained | embassy-tmc/src/tmc2209.rs:310-343 | the same write with the echo of the write frame taken off before the second counter read |
| AsyncUart.ReadNeverReportsLength | embassy-tmc/src/tmc2209.rs:289-296 | since every request is 4 or 8 bytes long, a read never fails with DatagramLength |
| AsyncUart.ReadAgreesWithCanonical | embassy-tmc/src/tmc2209.rs:265-306 | on the same bytes this read and the canonical one send the same frames, succeed together and read the same value |
| AsyncUart.UnconfirmedWriteLooksLikeBusFault | embassy-tmc/src/tmc2209.rs:323-342 | a write the counter does not confirm is reported as UsartError, the same error as a failed send of the write frame |
| AsyncUart.EchoedWriteFrameSpoilsCheck | embassy-tmc/src/tmc2209.rs:323-330 | the second counter read decodes the echoed write frame, so a write the driver applied is reported failed whenever payload byte 1 is not 0x05 (the decoded window is the frame's payload bytes 1-3, its CRC and the request's first four bytes) |
| AsyncUart.CounterReadOfAnsweringDriver | embassy-tmc/src/tmc2209.rs:345-349 | a counter read answered with the reply frame for count c reads IfCnt(c) |
| AsyncUart.ConfirmedWriteSucceeds | embassy-tmc/src/tmc2209.rs:336-339 | two successful counter reads showing the write applied make the write succeed |
| AsyncUart.DrainedWriteToCountingDriver | embassy-tmc/src/tmc2209.rs:310-343 | with the echo drained, a driver that counts the write confirms it, also at the wrap from 255 to 0 |
| Legacy.RequestDatagram | src/tmc2209/datagram.rs:10-15 | any address byte is placed in the frame unchecked: sync, address, read address of the register, valid CRC |
| Legacy.RegisterDatagram | src/tmc2209/datagram.rs:31-53 | sync, address, write address of the register, the four payload bytes unchanged, and a CRC over the first seven |
| Legacy.CrcByte | src/tmc2209/datagram.rs:21-23 | the CRC read out of a valid frame is the CRC of all bytes before it |
| Legacy.IsValid | src/tmc2209/datagram.rs:67-74 | Ok exactly when the last byte is the CRC of the first seven, otherwise InvalidCrc; nothing else is checked |
| Legacy.Payload | src/tmc2209/datagram.rs:76-83 | the payload is bytes 3, 4, 5, 6 in that order |
| Legacy.RegisterDatagramIsValid | src/tmc2209/datagram.rs:31-74 | every frame the driver builds passes is_valid and gives back its payload |
| Legacy.ReadFromRegister | src/tmc2209/mod.rs:95-121 | the request is sent after a successful flush; Ok exactly when flush, send and receive work and the reply's CRC is right, with the reply returned unchanged; bus failures are Uart, a bad CRC InvalidCrc |
| Legacy.ReadKind | src/tmc2209/mod.rs:159-182 | a successful read is the requested register decoded from reply bytes 3..7, within its field bounds |
| Legacy.ReadChopConfAsWritten | src/tmc2209/mod.rs:174-177 | read_chop_conf as written sends the IFCNT request and returns a CHOPCONF value |
| Legacy.ReadChopConf | src/tmc2209/mod.rs:174-177 | the corrected read_chop_conf sends the CHOPCONF request |
| Legacy.ChopConfAsWrittenReadsIfCnt | src/tmc2209/mod.rs:174-177 | the request goes to address 0x02 (IFCNT), and the counter word is returned as if it were CHOPCONF |
| Legacy.ChopConfReadsChopConf | src/tmc2209/mod.rs:174-177 | the corrected read goes to 0x6C and returns the CHOPCONF value the driver holds |
| Legacy.WriteToRegister | src/tmc2209/mod.rs:124-157 | Ok exactly when both counter reads work, the frame went out and the second count is strictly larger; the counter request is sent first and the write frame second; a failing first read is returned as is, a failed frame send is Uart, a failing second read is returned as is, and a count that did not strictly grow is WriteError |
| Legacy.WrappedCounterReportedAsFailure | src/tmc2209/mod.rs:148-156 | a counter that wrapped from 255 to 0 is reported as WriteError |
| Legacy.CounterChecksDisagreeOnlyAtWrap | src/tmc2209/mod.rs:152-156 | the strict check and the wrap-aware check of the newer revisions differ exactly at (255, 0) |
| Legacy.StrictCheckRejectsWrap | src/tmc2209/mod.rs:152-156 | a single increment passes the strict check exactly when the counter was not 255; the wrap-aware check always accepts it |
| Legacy.ReadOfAnsweringDriver | src/tmc2209/mod.rs:159-172 | a read of register k answered with the reply frame for a value v of k reads v |
| Legacy.CountingDriverWriteSucceeds | src/tmc2209/mod.rs:124-157 | a driver whose counter goes from c to c + 1 with c below 255 has the write frame sent second and the write reported applied |
| Legacy.InitWithAnsweringDriver | src/tmc2209/mod.rs:54-90 | a driver answering IOIN with zero always-zero fields and GCONF with g is initialised with EN high, STEP and DIR low, and direction clockwise exactly when g.shaft is clear |
| Legacy.AnyCrcValidReplyAccepted | src/tmc2209/mod.rs:112-120 | any 8 bytes with a right CRC are accepted, whatever sync byte, address or register they name |
| Legacy.DirectionOf | src/tmc2209/mod.rs:74-81 | the recorded direction is clockwise exactly when GCONF shaft equals "DIR is high" |
| Legacy.DirLevel | src/tmc2209/mod.rs:208-213 | the DIR level driven for a direction is one from which the direction is read back |
| Legacy.DirectionLevelInverse | src/tmc2209/mod.rs:200-216 | the level driven for the direction read from a level is that level |
| Legacy.TestUart | src/tmc2209/mod.rs:86-92 | Ok exactly when IOIN is read and its zero1 and zero2 fields are 0; otherwise TestUartError after a good read |
| Legacy.Init | src/tmc2209/mod.rs:54-83 | Ok exactly when the UART test and the GCONF read both succeed; a failing test or GCONF read is returned as is; on success the pins start EN high, STEP low, DIR low and the direction is clockwise exactly when shaft is off |
| Legacy.SetDirection | src/tmc2209/mod.rs:200-216 | succeeds exactly when GCONF is read; then the direction is recorded and DIR is driven to the level for it under shaft, EN and STEP untouched; on error nothing changes |
| Legacy.GetDirection | src/tmc2209/mod.rs:218-221 | the direction the driver last recorded; what it returns after a set is stated by Legacy.SetThenGetDirection |
| Legacy.SetThenGetDirection | src/tmc2209/mod.rs:200-221 | after a successful set_direction, get_direction returns the direction just set; after a failed one it returns the direction from before |
| Legacy.InitAgreesWithSetDirection | src/tmc2209/mod.rs:54-83 | setting the direction init recorded, under the same GCONF, changes nothing |
| Eeprom.DeviceSelectCode | src/components/eeprom.rs:194-199 | User memory is 0x53 and System memory 0x57, both 7-bit addresses |
| Eeprom.RfOn | src/components/eeprom.rs:72-79 | an empty write to 0x51; Ok exactly when the bus write works, otherwise WriteError |
| Eeprom.RfOff | src/components/eeprom.rs:82-89 | an empty write to 0x55; Ok exactly when the bus write works, otherwise WriteError |
| Eeprom.SequentialCurrentRead | src/components/eeprom.rs:92-103 | a read of n bytes from the memory's code; Ok with exactly the bytes read, otherwise ReadError |
| Eeprom.CurrentAddressRead | src/components/eeprom.rs:106-110 | a one-byte read from the memory's code, returning that byte; a failed read is ReadError |
| Eeprom.SequentialRandomRead | src/components/eeprom.rs:113-129 | writes the 2-byte little-endian address, then reads n bytes; Ok with exactly the bytes read, otherwise ReadError |
| Eeprom.RandomAddressRead | src/components/eeprom.rs:132-141 | the same bus exchange as a sequential random read of one byte, returning that byte; a failed read is ReadError |
| Eeprom.FillPayload | src/components/eeprom.rs:158-165 | an N-byte payload: the address little-endian in bytes 0 and 1, the data from byte 2, zeros after it |
| Eeprom.SequentialWrite | src/components/eeprom.rs:144-172 | refused before any bus access exactly when N < len(data) + 2; otherwise one write of the full N-byte payload |
| Eeprom.SequentialWriteResult | src/components/eeprom.rs:154-156 | Ok exactly when the payload fits and the bus write works; a payload that does not fit is SequentialWritePayloadTooSmall |
| Eeprom.TrailingZerosAreWritten | src/components/eeprom.rs:143-170 | all N bytes are sent, the zeros after the data included |
| Eeprom.SequentialWriteShortened | src/components/eeprom.rs:143-172 | the same refusal, but the write sends exactly the address, low byte first, and the data, as the function's documentation describes |
| Eeprom.WrittenIsShortenedPlusZeros | src/components/eeprom.rs:143-172 | the bytes sent as coded are the documented bytes followed by N - len - 2 zeros, with the same result |
| Eeprom.ExtraZeroWritten | src/components/eeprom.rs:143-172 | one data byte at 0x0010 in a 4-byte buffer: the code sends [0x10, 0x00, 0xAB, 0x00], the documented write [0x10, 0x00, 0xAB] |
| Eeprom.PayloadCarriesData | embassy-buddy/src/components/eeprom.rs:148-155 | the payload's first two bytes read back as the address and the data sits unchanged after them |
| Eeprom.ByteWrite | src/components/eeprom.rs:175-183 | one write of exactly [addr_lo, addr_hi, data] to the memory's code |
| Eeprom.ByteWriteIsShortSequentialWrite | embassy-buddy/src/components/eeprom.rs:164-172 | a byte write is the sequential write of one byte with N = 3 |
| Eeprom.LeRoundTrip | src/components/eeprom.rs:158-159 | an address split into low and high bytes is joined back unchanged |
| Eeprom.LeBytesOfAddress | src/components/eeprom.rs:158-159 | two bytes joined into an address split back into the same two bytes |
| Eeprom.AddressesDistinct | embassy-buddy/src/components/eeprom.rs:67-83 | the two memory codes and the two RF codes are four different bus addresses |
| Flash.ToByte | embassy-buddy/src/components/flash.rs:88-96 | every instruction's opcode is one of 0x05, 0x35, 0x15 |
| Flash.OpcodeVectors | embassy-buddy/src/components/flash.rs:88-96 | read status register 1, 2 and 3 are opcodes 0x05, 0x35 and 0x15 |
| Flash.OpcodesIdentifyInstructions | embassy-buddy/src/components/flash.rs:88-96 | each opcode names its own instruction, so the three opcodes are distinct |
| Flash.SendInstruction | embassy-buddy/src/components/flash.rs:45-55 | chip select goes low and then high, exactly the opcode is sent, and the six bytes read are returned |
| Flash.DecodeOne | embassy-buddy/src/components/flash.rs:98-117 | each of the eight fields is its own bit of the status byte: busy bit 0, write_enable 1, block_protect_0-2 bits 2-4, top_bottom_protect 5, sector_block_protect 6, complement_protect 7 |
| Flash.RegisterOneBijection | embassy-buddy/src/components/flash.rs:98-117 | decoding status register 1 and encoding it are inverse both ways |
| Flash.RegisterTwoBijection | embassy-buddy/src/components/flash.rs:119-138 | decoding status register 2 and encoding it are inverse both ways |
| Flash.RegisterThreeBijection | embassy-buddy/src/components/flash.rs:140-159 | decoding status register 3 and encoding it are inverse both ways |
| Flash.ReadStatusRegisterOne | embassy-buddy/src/components/flash.rs:57-63 | the decoded register encodes back to the first response byte |
| Flash.InstructionOf | embassy-buddy/src/components/flash.rs:88-96 | an opcode maps back to an instruction only when that instruction's opcode is it |
| Flash.DecodeTwo | embassy-buddy/src/components/flash.rs:119-138 | each of the eight fields is its own bit of the status byte: status_register_lock bit 0, quad_enable 1, reserved 2, lock_bit_1-3 bits 3-5, complement_protect 6, suspend_status 7 |
| Flash.DecodeThree | embassy-buddy/src/components/flash.rs:140-159 | each of the eight fields is its own bit of the status byte: reserved_0 and reserved_1 bits 0-1, write_protect_selection 2, reserved_3 and reserved_4 bits 3-4, output_driver_strength_0 and _1 bits 5-6, reserved_7 7 |
| Flash.ReadStatusRegisterTwo | embassy-buddy/src/components/flash.rs:65-71 | the decoded register encodes back to the first response byte |
| Flash.ReadStatusRegisterThree | embassy-buddy/src/components/flash.rs:73-79 | the decoded register encodes back to the first response byte |
| Flash.OnlyFirstByteDecoded | embassy-buddy/src/components/flash.rs:57-79 | responses that agree in their first byte give the same status registers: the other five bytes are ignored |

## Left out

- Mutexes, `try_lock`, and holding or releasing locks across an exchange are concurrency and are not modelled. Each exchange is one sequential run. The `try_` pin operations take "the lock is free" as an input. `embassy-tmc/src/tmc2209.rs:323-330` releases the UART lock between the write frame and the counter read, so another task could interleave there; the model does not cover that.
- Timeouts, `read_exact` and UART buffering are I/O. They appear only as outcomes: a send goes out or fails; a receive returns the expected number of bytes or times out.
- The first revision's receive into an 8-byte buffer and flush are likewise outcomes. Its `uart` field type is not part of this model.
- The HAL error payloads inside `UsartError`/`Uart` are not modelled.
- The packed_struct derive is not modelled. Each layout is written out as bit extraction and insertion on a 32-bit word. The reading of `bytes = "k"` as bits 8k..8k+7 is an assumption.
- Registers.PwmConfRoundTrip: the first revision's `pwm_freq` field at bits `"16..17"` is taken to be bit 16 alone. The range syntax may also mean two bits.
- Registers.VActualRoundTrip: VACTUAL's `Integer<i32, Bits<24>>` is taken to be the low 24 bits, sign-extended on decode.
- Crc.Crc8Atm: one CRC function stands for the three copies in `src/components/tmc/datagram.rs`, `embassy-tmc/src/datagram.rs` and `src/tmc2209/datagram.rs`. The three routines have the same steps.
- `has_errored`, `try_has_errored`, `on_error` and `wait_for_error` read or wait on the DIAG input pin. They are input reads and are not modelled.
- The board builders `build_eeprom`, `init_eeprom` and the flash `init_flash` are static wiring and are not modelled.
- `embassy-tmc/src/errors.rs` lacks `TimeoutError` and `WriteError`, which `embassy-tmc/src/datagram.rs` uses. The model has one error type for the canonical driver and that crate, with `Timeout` for `TimeoutError`.
- `embassy-tmc/src/tmc2209.rs:318` calls `register.write_request`, but the crate's `Datagram` trait names it `as_write_request`. The model takes it to be `as_write_request`.
- AsyncUart.ReadRegister: `embassy-tmc/src/tmc2209.rs:303` calls `register.update`, which the crate's `Datagram` trait (`embassy-tmc/src/datagram.rs:12-160`) does not define. The model takes it to be the canonical `update` of `src/components/tmc/datagram.rs:65-69` (`Codec.Update`). That is where "unchanged on error" comes from.
- AsyncUart.ReadRegister: `embassy-tmc/src/datagram.rs:23` and `:105` return `TMCError::InvalidDriverAddress`, which `embassy-tmc/src/errors.rs` does not declare. The model uses the canonical `InvalidDriverAddress(addr)` variant for it.
- AsyncUart.ReadRegister: `embassy-tmc/src/tmc2209.rs:271` calls `register.read_request(self.addr)` as a method, but the trait declares `read_request(motor_addr)` without a receiver. The model takes it to be the trait's associated function for the register's kind.
- `embassy-tmc/src/tmc2209.rs:426` onward implement `fn read_register(&self)` for each register, but the trait requires `read_reg_addr()`. The model takes each of these to be that register's `read_reg_addr` (`Registers.ReadRegAddr`).
- `NoStaticsRemaining` in the first revision's error enum is never produced by the modelled code.
- `src/components/tmc/direction.rs` is not part of this model. Its fixed mapping (clockwise = DIR high) is taken from the pin operations.
- Eeprom.SequentialWrite: the `data.len() + 2` sum is treated as unbounded. `usize` overflow needs a slice of nearly `usize::MAX` bytes.
- Eeprom.SequentialWrite: the embassy-buddy copy (lines 134-162) builds the same frame and is covered by the same model.
- Flash.SendInstruction: the SPI and chip-select calls are unwrapped in the source, so bus failure is not modelled.
- AsyncUart.ReadRegister: the receive is unwrapped in the source, so it is modelled as always filling the buffer.
- AsyncUart.ReadRegister: the request is sent with `write`, not `write_all` (`embassy-tmc/src/tmc2209.rs:279`). A `write` that returns Ok after sending only part of the frame is modelled as `Sent`. The same holds for the counter request in `Datagram::write` (`embassy-tmc/src/datagram.rs:68`) and in `TMC2209AsyncUart::write_register` (line 325).
- Exchange.Read: the 5 ms wait after the receive in `Datagram::read` (`embassy-tmc/src/datagram.rs:50`) is timing and is not modelled.

## Findings

| source | as written | input that shows it | evidently intended | confidence | as-written member | corrected member |
|---|---|---|---|---|---|---|
| src/tmc2209/mod.rs:174-177 | `read_chop_conf` sends the request for `TMC2209Register::IfCnt` and unpacks the reply as `ChopConf` | any read of CHOPCONF: the request goes to 0x02 and the returned CHOPCONF fields are the bits of the interface counter | request `TMC2209Register::ChopConf` (0x6C) | not executed; high | Legacy.ChopConfAsWrittenReadsIfCnt | Legacy.ChopConfReadsChopConf |
| src/tmc2209/mod.rs:148-156 | a write succeeds only if the counter after is strictly greater than before; the comment at line 148 notes the wrap as a to-do | counter 255 before and 0 after: the driver applied the write but `WriteError` is reported | accept the wrap from 255 to 0, as the newer revisions do | not executed; high | Legacy.WrappedCounterReportedAsFailure | Exchange.SingleIncrementApplied |
| embassy-tmc/src/tmc2209.rs:310-343 | in read-back mode the second counter read takes the next 12 bytes, which start with the echo of the 8-byte write frame | a write whose payload byte 1 is not 0x05: the counter "reply" decoded is the write frame's tail, so the check fails and `UsartError` is reported though the driver applied it | skip the write frame's echo (the canonical driver reads 20 bytes and decodes from byte 12) | not executed; medium, the read-back behaviour depends on the UART wiring | AsyncUart.EchoedWriteFrameSpoilsCheck | AsyncUart.DrainedWriteToCountingDriver |
| src/components/eeprom.rs:143-172 | the documentation says the buffer is shortened to the data so no zero bytes beyond it are written, but the whole N-byte buffer is sent | one byte 0xAB to address 0x0010 with N = 4: a zero is also written to address 0x0011 | send only the address and the data | not executed; medium, the `TODO: Concatenate` at line 150 suggests the shortening was planned and not yet done | Eeprom.ExtraZeroWritten | Eeprom.SequentialWriteShortened |

=== FILE: asyncuart.dfy ===
/**
  The stand-alone crate's `TMC2209AsyncUart`: a driver that owns its pins
  and shares a UART, in read-back mode, with up to three other drivers.

  Its reads send the request and then take exactly the number of bytes
  that request and reply fill in read-back mode, from the UART's receive
  side. Its writes read IFCNT, send the write frame, and read IFCNT again;
  a write the counter does not confirm is reported as a UART error.
 */
module AsyncUart {
  import opened Registers
  import opened Codec
  import opened Transport
  import opened Pins
  import opened Exchange

  /** A driver on a UART, with its pins and its UART address. */
  datatype AsyncDriver = AsyncDriver(pins: PinState, addr: bv8)

  /**
    The bus outcomes of one read: the request's transmission and the bytes
    taken from the receive side. The source unwraps the receive, so it is
    always the full buffer.
   */
  datatype UartRead = UartRead(tx: TxOutcome, buffer: seq<bv8>)

  /**
    `new_with_input` and `new_with_interrupt`: a driver on a UART, refused
    for an address above 3.
   */
  function NewAsyncUart(pins: PinState, addr: bv8): (r: Result<AsyncDriver>)
    ensures r.Err? <==> addr > MAX_DRIVER_ADDR
    ensures r.Err? ==> r.error == InvalidMotorAddress(addr)
    ensures r.Ok? ==> r.value == AsyncDriver(pins, addr)
  {
    if addr > MAX_DRIVER_ADDR then Err(InvalidMotorAddress(addr)) else Ok(AsyncDriver(pins, addr))
  }

  /**
    Where the reply sits in the receive buffer after a request of `start`
    bytes: the 8 bytes after the echoed request. Only 4-byte read and
    8-byte write requests are known.
   */
  function ResponseWindow(start: nat): (r: Result<(nat, nat)>)
    ensures r.Ok? <==> start == 4 || start == 8
    ensures r.Ok? ==> r.value.0 == start && r.value.1 == start + 8
    ensures r.Err? ==> r.error == DatagramLength(start)
  {
    match start
    case 4 => Ok((4, 12))
    case 8 => Ok((8, 16))
    case _ => Err(DatagramLength(start))
  }

  /** The size of the buffer one read fills: the echoed 4-byte request and the 8-byte reply. */
  const READ_BUFFER: nat := 12

  /**
    `read_register`: sends the read request for `register`'s kind and
    decodes the reply found after its echo into `register`, which is kept
    unchanged on any error.
   */
  function ReadRegister(d: AsyncDriver, register: Register, io: UartRead): (p: (Register, Trace<()>))
    requires |io.buffer| == READ_BUFFER
    ensures KindOf(p.0) == KindOf(register)
    ensures p.1.result.Err? ==> p.0 == register
    ensures p.1.result.Ok? <==>
              d.addr <= MAX_DRIVER_ADDR && io.tx.Sent? && IsReplyFor(KindOf(register), io.buffer[4..])
    ensures d.addr > MAX_DRIVER_ADDR ==> p.1 == Trace([], Err(InvalidDriverAddress(d.addr)))
    ensures d.addr <= MAX_DRIVER_ADDR ==> p.1.sent == [ReadRequest(KindOf(register), d.addr).value]
    ensures d.addr <= MAX_DRIVER_ADDR && io.tx.TxFailed? ==> p.1.result == Err(UsartError)
  {
    var request := ReadRequest(KindOf(register), d.addr);
    if request.Err? then
      (register, Trace([], Err(request.error)))
    else if io.tx.TxFailed? then
      (register, Trace([request.value], Err(UsartError)))
    else
      // A read request is 4 bytes long, so the window is always found.
      var window := ResponseWindow(|request.value|).value;
      assert io.buffer[window.0..window.1] == io.buffer[4..];
      var u := Update(register, io.buffer[window.0..window.1]);
      (u.0, Trace([request.value], u.1))
  }

  /**
    `read_ifcnt`, `read_ioin`, … `read_pwmconf`: reads the register of
    kind `k` into its default value.
   */
  function ReadKind(d: AsyncDriver, k: Kind, io: UartRead): (p: (Register, Trace<()>))
    requires |io.buffer| == READ_BUFFER
    ensures KindOf(p.0) == k
    ensures p.1.result.Err? ==> p.0 == Default(k)
  {
    ReadRegister(d, Default(k), io)
  }

  /**
    `write_register` as written: reads IFCNT, sends the write frame, reads
    IFCNT again. When the counter does not show the write applied, the
    error reported is `UsartError`. The bytes the second read takes are
    the next 12 on the receive side, whatever they are.
   */
  function WriteRegister(d: AsyncDriver, register: Register, before: UartRead, frameTx: TxOutcome, after: UartRead)
    : (t: Trace<()>)
    requires |before.buffer| == READ_BUFFER && |after.buffer| == READ_BUFFER
    ensures t.result.Ok? ==> d.addr <= MAX_DRIVER_ADDR && frameTx.Sent? && |t.sent| == 3
    ensures ReadKind(d, IFCNT, before).1.result.Err? ==> t == ReadKind(d, IFCNT, before).1
  {
    var b := ReadKind(d, IFCNT, before);
    if b.1.result.Err? then
      b.1
    else
      // The counter read succeeded, so the address is valid and the frame is built.
      var frame := AsWriteRequest(register, d.addr).value;
      if frameTx.TxFailed? then
        Trace(b.1.sent + [frame], Err(UsartError))
      else
        var a := ReadKind(d, IFCNT, after);
        var sent := b.1.sent + [frame] + a.1.sent;
        if a.1.result.Err? then
          Trace(sent, a.1.result)
        else if WriteApplied(CountOf(b.0), CountOf(a.0)) then
          Trace(sent, Ok(()))
        else
          Trace(sent, Err(UsartError))
  }

  /**
    `write_register` with the write frame's echo drained: the 8 echoed
    bytes of the write frame are taken off the receive side before the
    second counter read, as the canonical driver does by reading them
    along with the counter reply.
   */
  function WriteRegisterDrained(d: AsyncDriver, register: Register, before: UartRead, frameTx: TxOutcome, after: UartRead)
    : (t: Trace<()>)
    requires |before.buffer| == READ_BUFFER && |after.buffer| == 8 + READ_BUFFER
    ensures t.result.Ok? ==> d.addr <= MAX_DRIVER_ADDR && frameTx.Sent? && |t.sent| == 3
  {
    WriteRegister(d, register, before, frameTx, UartRead(after.tx, after.buffer[8..]))
  }

  // ----- properties -----

  /** Requests are 4 or 8 bytes, so the length error is never reported for a read. */
  lemma ReadNeverReportsLength(d: AsyncDriver, register: Register, io: UartRead)
    requires |io.buffer| == READ_BUFFER
    ensures ReadRegister(d, register, io).1.result.Err? ==> !ReadRegister(d, register, io).1.result.error.DatagramLength?
  {
  }

  /**
    Once the request went out, a read is the decode of the 8 bytes after
    the request's echo into `register`: the new register and the result
    are those `update_from_datagram` gives.
   */
  lemma ReadRegisterDecodesReply(d: AsyncDriver, register: Register, io: UartRead)
    requires |io.buffer| == READ_BUFFER && d.addr <= MAX_DRIVER_ADDR && io.tx.Sent?
    ensures ReadRegister(d, register, io).0 == Update(register, io.buffer[4..]).0
    ensures ReadRegister(d, register, io).1.result == Update(register, io.buffer[4..]).1
  {
    var request := ReadRequest(KindOf(register), d.addr);
    assert |request.value| == 4;
    assert io.buffer[4..12] == io.buffer[4..];
  }

  /**
    On the same received bytes, this driver's read and the canonical read
    agree: same frames sent, same success, same value.
   */
  lemma ReadAgreesWithCanonical(d: AsyncDriver, register: Register, io: UartRead)
    requires |io.buffer| == READ_BUFFER && d.addr <= MAX_DRIVER_ADDR
    ensures ReadRegister(d, register, io).1.sent == Read(KindOf(register), d.addr, ReadIo(io.tx, Received(io.buffer))).sent
    ensures ReadRegister(d, register, io).1.result.Ok? <==>
              Read(KindOf(register), d.addr, ReadIo(io.tx, Received(io.buffer))).result.Ok?
    ensures ReadRegister(d, register, io).1.result.Ok? ==>
              ReadRegister(d, register, io).0 == Read(KindOf(register), d.addr, ReadIo(io.tx, Received(io.buffer))).result.value
  {
    assert io.buffer[4..12] == io.buffer[4..];
  }

  /**
    A write the counter does not confirm is reported exactly like a failed
    transmission of the write frame: both are `UsartError`.
   */
  lemma UnconfirmedWriteLooksLikeBusFault(d: AsyncDriver, register: Register, before: UartRead, after: UartRead)
    requires |before.buffer| == READ_BUFFER && |after.buffer| == READ_BUFFER && d.addr <= MAX_DRIVER_ADDR
    requires ReadKind(d, IFCNT, before).1.result.Ok? && ReadKind(d, IFCNT, after).1.result.Ok?
    requires !WriteApplied(CountOf(ReadKind(d, IFCNT, before).0), CountOf(ReadKind(d, IFCNT, after).0))
    ensures WriteRegister(d, register, before, Sent, after).result == Err(UsartError)
    ensures WriteRegister(d, register, before, TxFailed, after).result == Err(UsartError)
  {
  }

  /**
    In read-back mode the receive side holds the echo of the write frame
    ahead of the counter request's echo and reply. The second counter read
    takes the write frame's echo and the request's echo as its 12 bytes, so
    the 8 bytes it decodes are payload bytes 1-3, the write frame's CRC and
    the request's first four bytes. Whenever payload byte 1 is not the sync
    byte the check fails, and the write is reported as failed even though
    the driver applied it. Even when it is, the window passes only if payload
    bytes 2 and 3 are 0xFF and 0x02 and the CRC matches.
   */
  lemma EchoedWriteFrameSpoilsCheck(d: AsyncDriver, register: Register, c: bv8, frame: seq<bv8>, request: seq<bv8>)
    requires d.addr <= MAX_DRIVER_ADDR
    requires frame == AsWriteRequest(register, d.addr).value && request == ReadRequest(IFCNT, d.addr).value
    requires BytesOf(Pack(register))[1] != SYNC_BYTE
    ensures WriteRegister(d, register, UartRead(Sent, request + ReplyFrame(IFCNT, Pack(IfCnt(c)))), Sent,
                          UartRead(Sent, frame + request)).result.Err?
  {
    var buffer := frame + request;
    assert buffer[4..][0] == frame[4] == BytesOf(Pack(register))[1];
  }

  /** A counter read answered with the reply frame for count `c` reads `c`. */
  lemma CounterReadOfAnsweringDriver(d: AsyncDriver, c: bv8, io: UartRead)
    requires d.addr <= MAX_DRIVER_ADDR && io.tx.Sent?
    requires io.buffer == ReadRequest(IFCNT, d.addr).value + ReplyFrame(IFCNT, Pack(IfCnt(c)))
    ensures ReadKind(d, IFCNT, io).1.result.Ok? && ReadKind(d, IFCNT, io).0 == IfCnt(c)
  {
    var f := ReplyFrame(IFCNT, Pack(IfCnt(c)));
    assert io.buffer[4..12] == f;
    ReplyRoundTrip(IfCnt(c));
    assert Update(Default(IFCNT), f) == (IfCnt(c), Ok(()));
  }

  /** Dropping a prefix leaves what followed it. */
  lemma DropPrefix(a: seq<bv8>, b: seq<bv8>)
    ensures (a + b)[|a|..] == b
  {
  }

  /** Two successful counter reads that show the write applied make the write succeed. */
  lemma ConfirmedWriteSucceeds(d: AsyncDriver, register: Register, before: UartRead, after: UartRead)
    requires |before.buffer| == READ_BUFFER && |after.buffer| == READ_BUFFER
    requires ReadKind(d, IFCNT, before).1.result.Ok? && ReadKind(d, IFCNT, after).1.result.Ok?
    requires WriteApplied(CountOf(ReadKind(d, IFCNT, before).0), CountOf(ReadKind(d, IFCNT, after).0))
    ensures WriteRegister(d, register, before, Sent, after).result == Ok(())
  {
  }

  /**
    A write succeeds exactly when both counter reads succeed, the write
    frame went out and the counter shows the write applied.
   */
  lemma WriteRegisterSucceedsIff(d: AsyncDriver, register: Register, before: UartRead, frameTx: TxOutcome, after: UartRead)
    requires |before.buffer| == READ_BUFFER && |after.buffer| == READ_BUFFER
    ensures WriteRegister(d, register, before, frameTx, after).result.Ok? <==>
              ReadKind(d, IFCNT, before).1.result.Ok? && frameTx.Sent? && ReadKind(d, IFCNT, after).1.result.Ok? &&
              WriteApplied(CountOf(ReadKind(d, IFCNT, before).0), CountOf(ReadKind(d, IFCNT, after).0))
  {
  }

  /**
    What a write reports once the first counter read succeeded: a failed
    frame send and an unconfirmed count are both `UsartError`, and a
    failing second read returns that read's own result.
   */
  lemma WriteRegisterErrors(d: AsyncDriver, register: Register, before: UartRead, frameTx: TxOutcome, after: UartRead)
    requires |before.buffer| == READ_BUFFER && |after.buffer| == READ_BUFFER
    requires ReadKind(d, IFCNT, before).1.result.Ok?
    ensures frameTx.TxFailed? ==> WriteRegister(d, register, before, frameTx, after).result == Err(UsartError)
    ensures frameTx.Sent? && ReadKind(d, IFCNT, after).1.result.Err? ==>
              WriteRegister(d, register, before, frameTx, after).result == ReadKind(d, IFCNT, after).1.result
    ensures frameTx.Sent? && ReadKind(d, IFCNT, after).1.result.Ok? &&
            !WriteApplied(CountOf(ReadKind(d, IFCNT, before).0), CountOf(ReadKind(d, IFCNT, after).0)) ==>
              WriteRegister(d, register, before, frameTx, after).result == Err(UsartError)
  {
  }

  /**
    The frames a write sends once the first counter read succeeded and the
    write frame went out: the counter request, the write frame, and the
    counter request again.
   */
  lemma WriteRegisterFrames(d: AsyncDriver, register: Register, before: UartRead, after: UartRead)
    requires |before.buffer| == READ_BUFFER && |after.buffer| == READ_BUFFER
    requires ReadKind(d, IFCNT, before).1.result.Ok?
    ensures d.addr <= MAX_DRIVER_ADDR
    ensures |WriteRegister(d, register, before, Sent, after).sent| == 3
    ensures WriteRegister(d, register, before, Sent, after).sent[0] == ReadRequest(IFCNT, d.addr).value
    ensures WriteRegister(d, register, before, Sent, after).sent[1] == AsWriteRequest(register, d.addr).value
    ensures WriteRegister(d, register, before, Sent, after).sent[2] == ReadRequest(IFCNT, d.addr).value
  {
    CounterReadSendsRequest(d, before);
    CounterReadSendsRequest(d, after);
    WriteRegisterSendsReads(d, register, before, after);
  }

  /** Once the first counter read succeeded and the frame went out, the write sends both reads' frames around the write frame. */
  lemma WriteRegisterSendsReads(d: AsyncDriver, register: Register, before: UartRead, after: UartRead)
    requires |before.buffer| == READ_BUFFER && |after.buffer| == READ_BUFFER
    requires ReadKind(d, IFCNT, before).1.result.Ok? && d.addr <= MAX_DRIVER_ADDR
    ensures WriteRegister(d, register, before, Sent, after).sent ==
              ReadKind(d, IFCNT, before).1.sent + [AsWriteRequest(register, d.addr).value] + ReadKind(d, IFCNT, after).1.sent
  {
  }

  /** A counter read to a valid address sends the one counter request; one that succeeds had a valid address. */
  lemma CounterReadSendsRequest(d: AsyncDriver, io: UartRead)
    requires |io.buffer| == READ_BUFFER
    ensures ReadKind(d, IFCNT, io).1.result.Ok? ==> d.addr <= MAX_DRIVER_ADDR
    ensures d.addr <= MAX_DRIVER_ADDR ==> ReadKind(d, IFCNT, io).1.sent == [ReadRequest(IFCNT, d.addr).value]
  {
    assert KindOf(Default(IFCNT)) == IFCNT;
  }

  /**
    With the write frame's echo drained, a driver that answers both counter
    requests and counts the write in between confirms it, also when its
    counter wraps.
   */
  lemma DrainedWriteToCountingDriver(d: AsyncDriver, register: Register, c: bv8, frame: seq<bv8>, request: seq<bv8>,
                                     before: UartRead, after: UartRead)
    requires d.addr <= MAX_DRIVER_ADDR
    requires frame == AsWriteRequest(register, d.addr).value && request == ReadRequest(IFCNT, d.addr).value
    requires before == UartRead(Sent, request + ReplyFrame(IFCNT, Pack(IfCnt(c))))
    requires after == UartRead(Sent, frame + (request + ReplyFrame(IFCNT, Pack(IfCnt(c + 1)))))
    ensures WriteRegisterDrained(d, register, before, Sent, after).result == Ok(())
  {
    CounterReadOfAnsweringDriver(d, c, before);
    var reply := ReplyFrame(IFCNT, Pack(IfCnt(c + 1)));
    var drained := UartRead(Sent, request + reply);
    DropPrefix(frame, drained.buffer);
    CounterReadOfAnsweringDriver(d, c + 1, drained);
    ConfirmedWriteSucceeds(d, register, before, drained);
  }
}

=== FILE: bits.dfy ===
/** Bit-vector helpers shared by the register layouts. */
module Bits {

  function BitOf(b: bool): bv32 {
    if b then 1 else 0
  }

  /** The low `8` bits of a word, as a byte. */
  function Low8(w: bv32): bv8 {
    (w & 0xFF) as bv8
  }

  /**
    The 32-bit two's-complement pattern of the signed value held in the
    low 24 bits of `w`: bit 23 is copied into bits 24..31.
   */
  function SignExtend24(w: bv32): bv32 {
    (w & 0xFF_FFFF) | ((0 - ((w >> 23) & 1)) << 24)
  }

  /**
    A signed 32-bit value, given by its two's-complement pattern, lies in
    the 24-bit range -2^23 .. 2^23 - 1: bits 23..31 are all equal.
   */
  predicate InI24(v: bv32) {
    v & 0xFF80_0000 == 0 || v & 0xFF80_0000 == 0xFF80_0000
  }

  /** Sign extension keeps the low 24 bits. */
  lemma SignExtendLow(w: bv32)
    ensures SignExtend24(w) & 0xFF_FFFF == w & 0xFF_FFFF
  {
  }

  /** A sign-extended pattern always lies in the 24-bit range. */
  lemma SignExtendInRange(w: bv32)
    ensures InI24(SignExtend24(w))
  {
  }

  /** A value of the 24-bit range is its own sign extension. */
  lemma SignExtendFixesRange(v: bv32)
    requires InI24(v)
    ensures SignExtend24(v) == v
  {
  }

  /** Exactly the values of the 24-bit range survive truncation and sign extension. */
  lemma SignExtendKeeps(v: bv32)
    ensures SignExtend24(v) == v <==> InI24(v)
  {
    SignExtendInRange(v);
    if InI24(v) {
      SignExtendFixesRange(v);
    }
  }
}

=== FILE: codec.dfy ===
/**
  The TMC2209 UART datagrams: the 4-byte read request, the 8-byte write
  request and the ordered validation of an 8-byte reply.

  The canonical driver and the embassy-tmc crate carry the same
  `Datagram` trait: the same frames, the same order of checks and the same
  error payloads, so one definition models both. A datagram is sealed by
  appending the CRC of the bytes before it.
 */
module Codec {
  import opened Crc
  import opened Registers
  import opened Options

  /** The byte that opens every datagram. */
  const SYNC_BYTE: bv8 := 0x05

  /** The address byte of a reply: the host, not any driver. */
  const MASTER_ADDR: bv8 := 0xFF

  /** The highest driver address the UART can select. */
  const MAX_DRIVER_ADDR: bv8 := 3

  /**
    The errors of the driver crates. The canonical driver and embassy-tmc
    each use a subset; one type covers both.
   */
  datatype TmcError =
    | InvalidDriverAddress(addr: bv8)
    | InvalidMotorAddress(motorAddr: bv8)
    | InvalidSyncByte(sync: bv8)
    | InvalidMasterAddress(master: bv8)
    | CrcDoesNotMatch
    | RegisterAddrDoesNotMatch(expected: bv8, received: bv8)
    | DatagramLength(len: nat)
    | PackingError
    | UnpackingError
    | UsartError
    | NoUsart
    | WriteError(before: bv8, after: bv8)
    | Timeout

  datatype Result<T> = Ok(value: T) | Err(error: TmcError)

  /** A datagram: `body` followed by its CRC. */
  function Seal(body: seq<bv8>): (f: seq<bv8>)
    ensures |f| == |body| + 1 && f[..|body|] == body
    ensures CrcValid(f)
  {
    var f := body + [Crc8(body)];
    assert f[..|body|] == body;
    f
  }

  /**
    The read request for register `k` of the driver at `addr`: refused
    for an address the UART cannot select, otherwise a sealed 4-byte frame
    that names the driver and the register.
   */
  function ReadRequest(k: Kind, addr: bv8): (r: Result<seq<bv8>>)
    ensures r.Err? <==> addr > MAX_DRIVER_ADDR
    ensures r.Err? ==> r.error == InvalidDriverAddress(addr)
    ensures r.Ok? ==> |r.value| == 4 && CrcValid(r.value)
    ensures r.Ok? ==> r.value[0] == SYNC_BYTE && r.value[1] == addr && KindAt(r.value[2]) == Some(k)
  {
    if addr > MAX_DRIVER_ADDR then
      Err(InvalidDriverAddress(addr))
    else
      KindAtReadRegAddr(k);
      Ok(Seal([SYNC_BYTE, addr, ReadRegAddr(k)]))
  }

  /**
    The write request carrying value `v` to the driver at `addr`: refused
    for an address the UART cannot select, otherwise a sealed 8-byte frame
    whose third byte is the register's write address and whose payload
    reads back as `v` when `v`'s fields fit. Packing into the 4-byte
    payload cannot fail, so no `PackingError` is ever reported.
   */
  function AsWriteRequest(v: Register, addr: bv8): (r: Result<seq<bv8>>)
    ensures r.Err? <==> addr > MAX_DRIVER_ADDR
    ensures r.Err? ==> r.error == InvalidDriverAddress(addr)
    ensures r.Ok? ==> |r.value| == 8 && CrcValid(r.value)
    ensures r.Ok? ==> r.value[0] == SYNC_BYTE && r.value[1] == addr
    ensures r.Ok? ==> r.value[2] >= WRITE_OFFSET && KindAt(r.value[2] - WRITE_OFFSET) == Some(KindOf(v))
    ensures r.Ok? ==> r.value[3..7] == BytesOf(Pack(v))
  {
    if addr > MAX_DRIVER_ADDR then
      Err(InvalidDriverAddress(addr))
    else
      var k := KindOf(v);
      var p := BytesOf(Pack(v));
      var a := WriteRegAddr(k);
      var f := Seal([SYNC_BYTE, addr, a, p[0], p[1], p[2], p[3]]);
      KindAtWriteRegAddr(k, a);
      PayloadOfSealed(f, p);
      Ok(f)
  }

  /** The payload of a write request reads back as the value written, when its fields fit. */
  lemma WriteRequestCarriesValue(v: Register, addr: bv8)
    requires addr <= MAX_DRIVER_ADDR && Fits(v)
    ensures Unpack(KindOf(v), WordOf(AsWriteRequest(v, addr).value[3..7])) == v
  {
    var w := Pack(v);
    WordOfBytesOf(w);
    UnpackPack(v);
  }

  lemma PayloadOfSealed(f: seq<bv8>, p: seq<bv8>)
    requires |p| == 4 && |f| == 8
    requires f[3] == p[0] && f[4] == p[1] && f[5] == p[2] && f[6] == p[3]
    ensures f[3..7] == p
  {
  }

  /** The frame a driver sends in answer to a read of register `k` holding word `w`. */
  function ReplyFrame(k: Kind, w: bv32): (f: seq<bv8>)
    ensures |f| == 8 && CrcValid(f)
  {
    var p := BytesOf(w);
    Seal([SYNC_BYTE, MASTER_ADDR, ReadRegAddr(k), p[0], p[1], p[2], p[3]])
  }

  /** An 8-byte reply to a read of register `k` that passes every check. */
  predicate IsReplyFor(k: Kind, d: seq<bv8>) {
    |d| == 8 && CrcValid(d) && d[0] == SYNC_BYTE && d[1] == MASTER_ADDR && d[2] == ReadRegAddr(k)
  }

  /**
    The value of register `k` carried by reply `d`. The checks run in a
    fixed order and the first that fails is reported: the length, the
    CRC, the sync byte, the master address, the register address. The
    master-address error carries byte 0 of the reply, not byte 1.
   */
  function FromDatagram(k: Kind, d: seq<bv8>): (r: Result<Register>)
    ensures r.Ok? <==> IsReplyFor(k, d)
    ensures r.Ok? ==> KindOf(r.value) == k && Fits(r.value) && Pack(r.value) == WordOf(d[3..7]) & UsedBits(k)
    ensures |d| != 8 ==> r == Err(DatagramLength(|d|))
    ensures |d| == 8 && !CrcValid(d) ==> r == Err(CrcDoesNotMatch)
    ensures |d| == 8 && CrcValid(d) && d[0] != SYNC_BYTE ==> r == Err(InvalidSyncByte(d[0]))
    ensures |d| == 8 && CrcValid(d) && d[0] == SYNC_BYTE && d[1] != MASTER_ADDR ==>
              r == Err(InvalidMasterAddress(d[0]))
    ensures |d| == 8 && CrcValid(d) && d[0] == SYNC_BYTE && d[1] == MASTER_ADDR && d[2] != ReadRegAddr(k) ==>
              r == Err(RegisterAddrDoesNotMatch(ReadRegAddr(k), d[2]))
    ensures r != Err(UnpackingError)
  {
    if |d| != 8 then
      Err(DatagramLength(|d|))
    else if d[7] != Crc8(d[0..7]) then
      assert d[..7] == d[0..7];
      Err(CrcDoesNotMatch)
    else if d[0] != SYNC_BYTE then
      Err(InvalidSyncByte(d[0]))
    else if d[1] != MASTER_ADDR then
      Err(InvalidMasterAddress(d[0]))
    else if d[2] != ReadRegAddr(k) then
      Err(RegisterAddrDoesNotMatch(ReadRegAddr(k), d[2]))
    else
      assert d[..7] == d[0..7];
      var w := WordOf(d[3..7]);
      PackUnpack(k, w);
      Ok(Unpack(k, w))
  }

  /**
    `update`: on a valid reply the value is replaced by the decoded one;
    on any error the value is kept and the error reported.
   */
  function Update(self: Register, d: seq<bv8>): (p: (Register, Result<()>))
    ensures p.1.Ok? <==> IsReplyFor(KindOf(self), d)
    ensures p.1.Err? ==> p.0 == self && p.1.error == FromDatagram(KindOf(self), d).error
    ensures p.1.Ok? ==> KindOf(p.0) == KindOf(self) && Fits(p.0) && Pack(p.0) == WordOf(d[3..7]) & UsedBits(KindOf(self))
  {
    match FromDatagram(KindOf(self), d)
    case Ok(v) => (v, Ok(()))
    case Err(e) => (self, Err(e))
  }

  // ----- properties relating the frames -----

  /** A driver's reply carrying a value whose fields fit decodes to that value. */
  lemma ReplyRoundTrip(v: Register)
    requires Fits(v)
    ensures FromDatagram(KindOf(v), ReplyFrame(KindOf(v), Pack(v))) == Ok(v)
  {
    var k := KindOf(v);
    var w := Pack(v);
    var f := ReplyFrame(k, w);
    var p := BytesOf(w);
    PayloadOfSealed(f, p);
    WordOfBytesOf(w);
    assert IsReplyFor(k, f);
    UnpackPack(v);
  }

  /** Every valid reply is the driver's reply frame for the word it carries. */
  lemma ValidReplyIsReplyFrame(k: Kind, d: seq<bv8>)
    requires IsReplyFor(k, d)
    ensures d == ReplyFrame(k, WordOf(d[3..7]))
  {
    var w := WordOf(d[3..7]);
    var f := ReplyFrame(k, w);
    var p := BytesOf(w);
    BytesOfWordOf(d[3..7]);
    PayloadOfSealed(f, p);
    assert f[..7] == d[..7];
  }

  /**
    A valid reply corrupted in any single byte is rejected, and it is the
    CRC check that rejects it, ahead of every other check.
   */
  lemma CorruptedReplyFailsCrc(k: Kind, d: seq<bv8>, i: nat, x: bv8)
    requires IsReplyFor(k, d)
    requires i < 8 && d[i] != x
    ensures FromDatagram(k, d[i := x]) == Err(CrcDoesNotMatch)
  {
    SingleByteCorruptionDetected(d, i, x);
  }

  /**
    Whatever the offending byte, a reply rejected for its master address
    reports the sync byte 0x05: the error payload never names the received
    address byte.
   */
  lemma MasterAddressErrorNamesSync(k: Kind, d: seq<bv8>)
    requires |d| == 8 && CrcValid(d) && d[0] == SYNC_BYTE
    ensures FromDatagram(k, d).Err? && FromDatagram(k, d).error.InvalidMasterAddress? ==>
              FromDatagram(k, d).error == InvalidMasterAddress(SYNC_BYTE)
    ensures d[1] != MASTER_ADDR ==> FromDatagram(k, d).error.InvalidMasterAddress?
  {
  }

  // ----- frames seen on the wire -----

  /** The IOIN read request for driver 1 that the stepper example sends by hand: `[5, 1, 6, 217]`. */
  lemma IoinReadRequestVector()
    ensures ReadRequest(IOIN, 1) == Ok([5, 1, 6, 217])
  {
    var body: seq<bv8> := [SYNC_BYTE, 1, ReadRegAddr(IOIN)];
    assert body == [5, 1, 6];
    IoinRequestVector();
    assert Seal(body) == [5, 1, 6] + [217];
    var frame: seq<bv8> := [5, 1, 6, 217];
    assert Seal(body) == frame;
  }

  /** The GCONF read request for driver 1: `[5, 1, 0, 0xFE]`. */
  lemma GconfReadRequestVector()
    ensures ReadRequest(GCONF, 1) == Ok([5, 1, 0, 0xFE])
  {
    var s: seq<bv8> := [5, 1, 0];
    assert s[1..][1..][1..] == [];
    UnrollByte(0, 5);
    UnrollByte(0x69, 1);
    UnrollByte(0x91, 0);
    assert AbsorbByte(0, 5) == 0x69;
    assert AbsorbByte(0x69, 1) == 0x91;
    assert AbsorbByte(0x91, 0) == 0xFE;
    var body: seq<bv8> := [SYNC_BYTE, 1, ReadRegAddr(GCONF)];
    assert body == s;
    assert Seal(body) == s + [0xFE];
    var frame: seq<bv8> := [5, 1, 0, 0xFE];
    assert Seal(body) == frame;
  }

  /** An IFCNT reply carrying the count 7 decodes to that count. */
  lemma IfCntReplyVector()
    ensures FromDatagram(IFCNT, [5, 0xFF, 2, 0, 0, 0, 7, 226]) == Ok(IfCnt(7))
  {
    var s: seq<bv8> := [5, 0xFF, 2, 0, 0, 0, 7];
    assert s[1..][1..][1..][1..][1..][1..][1..] == [];
    UnrollByte(0, 5);
    UnrollByte(0x69, 0xFF);
    UnrollByte(0xEB, 2);
    UnrollByte(0x58, 0);
    UnrollByte(0x8F, 0);
    UnrollByte(0xA4, 0);
    UnrollByte(0x75, 7);
    assert AbsorbByte(0, 5) == 0x69;
    assert AbsorbByte(0x69, 0xFF) == 0xEB;
    assert AbsorbByte(0xEB, 2) == 0x58;
    assert AbsorbByte(0x58, 0) == 0x8F;
    assert AbsorbByte(0x8F, 0) == 0xA4;
    assert AbsorbByte(0xA4, 0) == 0x75;
    assert AbsorbByte(0x75, 7) == 0xE2;
    assert Crc8(s) == 226;
    var d: seq<bv8> := [5, 0xFF, 2, 0, 0, 0, 7, 226];
    assert d[..7] == s;
    assert IsReplyFor(IFCNT, d);
    assert WordOf(d[3..7]) == 7 by { assert d[3..7] == [0, 0, 0, 7]; }
  }
}

=== FILE: crc.dfy ===
/**
  The CRC-8 that protects every TMC2209 UART datagram.

  The driver's routine starts from 0 and, for each byte, runs eight
  shift/xor steps that consume the byte least-significant bit first,
  with polynomial 0x07 (x^8 + x^2 + x + 1). The three revisions of the
  firmware carry textually identical copies of this routine; `Crc8`
  models all of them and `Crc8Atm` is the loop as the firmware writes it.
 */
module Crc {

  /** The CRC polynomial without its x^8 term. */
  const POLY: bv8 := 0x07

  /** One shift/xor step, consuming the least-significant bit of `b`. */
  function Step(crc: bv8, b: bv8): bv8 {
    if (crc >> 7) ^ (b & 0x01) != 0 then (crc << 1) ^ POLY else crc << 1
  }

  /** `n` steps, shifting `b` right after each one. */
  function Steps(crc: bv8, b: bv8, n: nat): bv8
    decreases n
  {
    if n == 0 then crc else Steps(Step(crc, b), b >> 1, n - 1)
  }

  /** The eight steps that absorb one byte. */
  function AbsorbByte(crc: bv8, b: bv8): bv8 {
    Steps(crc, b, 8)
  }

  /** Absorbs `bytes` in order into the running value `crc`. */
  function Absorb(crc: bv8, bytes: seq<bv8>): bv8
    decreases |bytes|
  {
    if |bytes| == 0 then crc else Absorb(AbsorbByte(crc, bytes[0]), bytes[1..])
  }

  /** The CRC of a byte string: absorption from the initial value 0. */
  function Crc8(bytes: seq<bv8>): bv8 {
    Absorb(0, bytes)
  }

  /** A frame whose last byte is the CRC of the bytes before it. */
  predicate CrcValid(frame: seq<bv8>) {
    |frame| >= 1 && frame[|frame| - 1] == Crc8(frame[..|frame| - 1])
  }

  /** Absorbing a concatenation is absorbing its parts one after the other. */
  lemma {:induction false} AbsorbAppend(crc: bv8, a: seq<bv8>, b: seq<bv8>)
    ensures Absorb(crc, a + b) == Absorb(Absorb(crc, a), b)
    decreases |a|
  {
    if |a| == 0 {
      assert a + b == b;
    } else {
      assert (a + b)[1..] == a[1..] + b;
      AbsorbAppend(AbsorbByte(crc, a[0]), a[1..], b);
    }
  }

  /** Extending a prefix by one byte absorbs that byte. */
  lemma AbsorbSnoc(crc: bv8, bytes: seq<bv8>, i: nat)
    requires i < |bytes|
    ensures Absorb(crc, bytes[..i + 1]) == AbsorbByte(Absorb(crc, bytes[..i]), bytes[i])
  {
    assert bytes[..i + 1] == bytes[..i] + [bytes[i]];
    AbsorbAppend(crc, bytes[..i], [bytes[i]]);
    assert [bytes[i]][1..] == [];
  }

  /** The firmware's nested loop, computing the same value as `Crc8`. */
  method Crc8Atm(bytes: seq<bv8>) returns (crc: bv8)
    ensures crc == Crc8(bytes)
  {
    crc := 0;
    var i := 0;
    while i < |bytes|
      invariant 0 <= i <= |bytes|
      invariant crc == Absorb(0, bytes[..i])
    {
      var b := bytes[i];
      var j := 0;
      while j < 8
        invariant 0 <= j <= 8
        invariant Steps(crc, b, 8 - j) == AbsorbByte(Absorb(0, bytes[..i]), bytes[i])
      {
        if (crc >> 7) ^ (b & 0x01) != 0 {
          crc := (crc << 1) ^ POLY;
        } else {
          crc := crc << 1;
        }
        b := b >> 1;
        j := j + 1;
      }
      AbsorbSnoc(0, bytes, i);
      i := i + 1;
    }
    assert bytes[..|bytes|] == bytes;
  }

  // ----- error detection -----

  /** The eight steps of `AbsorbByte` written out one by one. */
  function Unrolled(c: bv8, b: bv8): bv8 {
    var c1 := Step(c, b);
    var c2 := Step(c1, b >> 1);
    var c3 := Step(c2, b >> 2);
    var c4 := Step(c3, b >> 3);
    var c5 := Step(c4, b >> 4);
    var c6 := Step(c5, b >> 5);
    var c7 := Step(c6, b >> 6);
    Step(c7, b >> 7)
  }

  lemma UnrollByte(c: bv8, b: bv8)
    ensures AbsorbByte(c, b) == Unrolled(c, b)
  {
    assert b >> 1 >> 1 == b >> 2;
    assert b >> 2 >> 1 == b >> 3;
    assert b >> 3 >> 1 == b >> 4;
    assert b >> 4 >> 1 == b >> 5;
    assert b >> 5 >> 1 == b >> 6;
    assert b >> 6 >> 1 == b >> 7;
    var c1 := Step(c, b);
    var c2 := Step(c1, b >> 1);
    var c3 := Step(c2, b >> 2);
    var c4 := Step(c3, b >> 3);
    var c5 := Step(c4, b >> 4);
    var c6 := Step(c5, b >> 5);
    var c7 := Step(c6, b >> 6);
    calc {
      Steps(c, b, 8);
      Steps(c1, b >> 1, 7);
      Steps(c2, b >> 2, 6);
      Steps(c3, b >> 3, 5);
      Steps(c4, b >> 4, 4);
      Steps(c5, b >> 5, 3);
      Steps(c6, b >> 6, 2);
      Steps(c7, b >> 7, 1);
    }
  }

  /** One step never merges two distinct running values. */
  lemma StepKeepsStatesApart(c: bv8, d: bv8, b: bv8)
    requires c != d
    ensures Step(c, b) != Step(d, b)
  {
  }

  /** Absorbing the same byte keeps two distinct running values distinct. */
  lemma AbsorbByteKeepsStatesApart(c: bv8, d: bv8, b: bv8)
    requires c != d
    ensures AbsorbByte(c, b) != AbsorbByte(d, b)
  {
    UnrollByte(c, b);
    UnrollByte(d, b);
    var c1 := Step(c, b); var d1 := Step(d, b); StepKeepsStatesApart(c, d, b);
    var c2 := Step(c1, b >> 1); var d2 := Step(d1, b >> 1); StepKeepsStatesApart(c1, d1, b >> 1);
    var c3 := Step(c2, b >> 2); var d3 := Step(d2, b >> 2); StepKeepsStatesApart(c2, d2, b >> 2);
    var c4 := Step(c3, b >> 3); var d4 := Step(d3, b >> 3); StepKeepsStatesApart(c3, d3, b >> 3);
    var c5 := Step(c4, b >> 4); var d5 := Step(d4, b >> 4); StepKeepsStatesApart(c4, d4, b >> 4);
    var c6 := Step(c5, b >> 5); var d6 := Step(d5, b >> 5); StepKeepsStatesApart(c5, d5, b >> 5);
    var c7 := Step(c6, b >> 6); var d7 := Step(d6, b >> 6); StepKeepsStatesApart(c6, d6, b >> 6);
    StepKeepsStatesApart(c7, d7, b >> 7);
  }

  /** `x` with its bit order reversed: bit 0 of `x` becomes bit 7. */
  function Reverse(x: bv8): bv8 {
    ((x & 0x01) << 7) | ((x & 0x02) << 5) | ((x & 0x04) << 3) | ((x & 0x08) << 1)
    | ((x & 0x10) >> 1) | ((x & 0x20) >> 3) | ((x & 0x40) >> 5) | ((x & 0x80) >> 7)
  }

  /** The top bit of `Reverse(x)` is the bit a step consumes next. */
  lemma ReverseTop(x: bv8)
    ensures Reverse(x) >> 7 == x & 0x01
    ensures Reverse(x) << 1 == Reverse(x >> 1)
  {
  }

  lemma ReverseInjective(x: bv8, y: bv8)
    requires x != y
    ensures Reverse(x) != Reverse(y)
  {
  }

  /** `r` shifted left `n` times. */
  function ShiftedOut(r: bv8, n: nat): bv8
    decreases n
  {
    if n == 0 then r else ShiftedOut(r << 1, n - 1)
  }

  lemma ShiftedOutReverse(x: bv8, n: nat, y: bv8, m: nat)
    requires n == m + 1 && y == x >> 1
    ensures ShiftedOut(Reverse(x), n) == ShiftedOut(Reverse(y), m)
  {
    ReverseTop(x);
  }

  lemma ReverseShiftsOut(x: bv8)
    ensures ShiftedOut(Reverse(x), 8) == 0
  {
  }

  lemma SameFeedback(c: bv8, x: bv8, r: bv8)
    requires r >> 7 == x & 0x01
    ensures ((c ^ r) >> 7) ^ (0 & 0x01) == (c >> 7) ^ (x & 0x01)
  {
  }

  lemma ShiftDistributes(c: bv8, r: bv8)
    ensures (c ^ r) << 1 == (c << 1) ^ (r << 1)
  {
  }

  lemma XorCommutes(a: bv8, b: bv8, p: bv8)
    ensures (a ^ b) ^ p == (a ^ p) ^ b
  {
  }

  /**
    The input bit a step consumes can be moved into the top bit of the
    running value: the step then consumes a zero bit, and the rest of `r`
    travels along, shifted.
   */
  lemma StepMovesBit(c: bv8, x: bv8, r: bv8)
    requires r >> 7 == x & 0x01
    ensures Step(c ^ r, 0) == Step(c, x) ^ (r << 1)
  {
    SameFeedback(c, x, r);
    ShiftDistributes(c, r);
    if (c >> 7) ^ (x & 0x01) != 0 {
      XorCommutes(c << 1, r << 1, POLY);
    }
  }

  lemma StepMovesLowBit(c: bv8, x: bv8, d: bv8, y: bv8)
    requires d == Step(c, x) && y == x >> 1
    ensures Step(c ^ Reverse(x), 0) == d ^ Reverse(y)
  {
    ReverseTop(x);
    StepMovesBit(c, x, Reverse(x));
  }

  // One-level unfoldings, stated over named values so that the inductive
  // step below only chains equalities.

  lemma StepsUnfold(c: bv8, b: bv8, n: nat, d: bv8, y: bv8, m: nat)
    requires n == m + 1 && d == Step(c, b) && y == b >> 1
    ensures Steps(c, b, n) == Steps(d, y, m)
  {
  }

  lemma ZeroStepsUnfold(e: bv8, n: nat, m: nat)
    requires n == m + 1
    ensures Steps(e, 0, n) == Steps(Step(e, 0), 0, m)
  {
    assert (0 as bv8) >> 1 == 0;
  }

  lemma XorCongruent(p: bv8, q: bv8, p2: bv8, q2: bv8)
    requires p == p2 && q == q2
    ensures p ^ q == p2 ^ q2
  {
  }

  lemma MovedStart(c: bv8, x: bv8, n: nat, d: bv8, y: bv8, m: nat)
    requires n == m + 1 && d == Step(c, x) && y == x >> 1
    ensures Steps(c ^ Reverse(x), 0, n) == Steps(d ^ Reverse(y), 0, m)
  {
    ZeroStepsUnfold(c ^ Reverse(x), n, m);
    StepMovesLowBit(c, x, d, y);
  }

  /** One step of the induction below: from `m` steps to `m + 1`. */
  lemma StepsMoveByteStep(c: bv8, x: bv8, n: nat, d: bv8, y: bv8, m: nat)
    requires n == m + 1 && d == Step(c, x) && y == x >> 1
    requires Steps(d ^ Reverse(y), 0, m) == Steps(d, y, m) ^ ShiftedOut(Reverse(y), m)
    ensures Steps(c ^ Reverse(x), 0, n) == Steps(c, x, n) ^ ShiftedOut(Reverse(x), n)
  {
    var rest := Steps(d, y, m);
    var out := ShiftedOut(Reverse(y), m);
    var whole := Steps(c, x, n);
    var shifted := ShiftedOut(Reverse(x), n);
    MovedStart(c, x, n, d, y, m);
    StepsUnfold(c, x, n, d, y, m);
    ShiftedOutReverse(x, n, y, m);
    XorCongruent(rest, out, whole, shifted);
  }

  /** Moving all input bits of `x` into the running value, `n` steps at a time. */
  lemma {:induction false} StepsMoveByte(c: bv8, x: bv8, n: nat)
    ensures Steps(c ^ Reverse(x), 0, n) == Steps(c, x, n) ^ ShiftedOut(Reverse(x), n)
    decreases n
  {
    if n > 0 {
      var d := Step(c, x);
      var y := x >> 1;
      var m := n - 1;
      StepsMoveByte(d, y, m);
      StepsMoveByteStep(c, x, n, d, y, m);
    }
  }

  /** Absorbing `x` is absorbing a zero byte from the value xor-ed with `Reverse(x)`. */
  lemma AbsorbByteMovesByte(c: bv8, x: bv8)
    ensures AbsorbByte(c, x) == AbsorbByte(c ^ Reverse(x), 0)
  {
    StepsMoveByte(c, x, 8);
    ReverseShiftsOut(x);
  }

  lemma XorCancels(c: bv8, a: bv8, b: bv8)
    requires a != b
    ensures c ^ a != c ^ b
  {
  }

  /** From one running value, two distinct bytes lead to distinct values. */
  lemma AbsorbByteSeparatesBytes(c: bv8, x: bv8, y: bv8)
    requires x != y
    ensures AbsorbByte(c, x) != AbsorbByte(c, y)
  {
    AbsorbByteMovesByte(c, x);
    AbsorbByteMovesByte(c, y);
    ReverseInjective(x, y);
    XorCancels(c, Reverse(x), Reverse(y));
    AbsorbByteKeepsStatesApart(c ^ Reverse(x), c ^ Reverse(y), 0);
  }

  /** Absorbing a common suffix keeps two distinct running values distinct. */
  lemma {:induction false} AbsorbKeepsStatesApart(c: bv8, d: bv8, bytes: seq<bv8>)
    requires c != d
    ensures Absorb(c, bytes) != Absorb(d, bytes)
    decreases |bytes|
  {
    if |bytes| > 0 {
      AbsorbByteKeepsStatesApart(c, d, bytes[0]);
      AbsorbKeepsStatesApart(AbsorbByte(c, bytes[0]), AbsorbByte(d, bytes[0]), bytes[1..]);
    }
  }

  /** Two strings that differ in exactly one byte have different CRCs. */
  lemma SingleByteChangeChangesCrc(a: seq<bv8>, i: nat, x: bv8)
    requires i < |a| && a[i] != x
    ensures Crc8(a[i := x]) != Crc8(a)
  {
    var b := a[i := x];
    assert a == a[..i] + [a[i]] + a[i + 1..];
    assert b == a[..i] + [x] + a[i + 1..];
    AbsorbAppend(0, a[..i] + [a[i]], a[i + 1..]);
    AbsorbAppend(0, b[..i] + [x], a[i + 1..]);
    assert b[..i] == a[..i];
    AbsorbAppend(0, a[..i], [a[i]]);
    AbsorbAppend(0, a[..i], [x]);
    var s := Absorb(0, a[..i]);
    assert Absorb(s, [a[i]]) == AbsorbByte(s, a[i]) by { assert [a[i]][1..] == []; }
    assert Absorb(s, [x]) == AbsorbByte(s, x) by { assert [x][1..] == []; }
    AbsorbByteSeparatesBytes(s, a[i], x);
    AbsorbKeepsStatesApart(AbsorbByte(s, a[i]), AbsorbByte(s, x), a[i + 1..]);
  }

  /** Any corruption confined to one byte of a CRC-valid frame is detected. */
  lemma SingleByteCorruptionDetected(f: seq<bv8>, i: nat, x: bv8)
    requires CrcValid(f)
    requires i < |f| && f[i] != x
    ensures !CrcValid(f[i := x])
  {
    var n := |f| - 1;
    var g := f[i := x];
    if i < n {
      assert g[..n] == f[..n][i := x];
      SingleByteChangeChangesCrc(f[..n], i, x);
    } else {
      assert g[..n] == f[..n];
    }
  }

  /** The frame `f` with bit `k` of byte `i` inverted. */
  function FlipBit(f: seq<bv8>, i: nat, k: nat): (g: seq<bv8>)
    requires i < |f| && k < 8
    ensures |g| == |f|
  {
    f[i := f[i] ^ ((1 as bv8) << k)]
  }

  lemma FlipChangesByte(b: bv8, k: nat)
    requires k < 8
    ensures b ^ ((1 as bv8) << k) != b
  {
  }

  /** In particular every single-bit corruption of a CRC-valid frame is detected. */
  lemma SingleBitFlipDetected(f: seq<bv8>, i: nat, k: nat)
    requires CrcValid(f)
    requires i < |f| && k < 8
    ensures !CrcValid(FlipBit(f, i, k))
  {
    FlipChangesByte(f[i], k);
    SingleByteCorruptionDetected(f, i, f[i] ^ ((1 as bv8) << k));
  }

  /** The IOIN read request for driver 1 used on hardware: `[5, 1, 6, 217]`. */
  lemma IoinRequestVector()
    ensures Crc8([5, 1, 6]) == 217
  {
    var s: seq<bv8> := [5, 1, 6];
    assert s[1..][1..][1..] == [];
    UnrollByte(0, 5);
    UnrollByte(0x69, 1);
    UnrollByte(0x91, 6);
    assert AbsorbByte(0, 5) == 0x69;
    assert AbsorbByte(0x69, 1) == 0x91;
    assert AbsorbByte(0x91, 6) == 0xD9;
  }
}

=== FILE: eeprom.dfy ===
/**
  The ST25DV dynamic-tag EEPROM on I2C: the device select codes of its two
  memory areas, the RF switch commands, and the frames of its reads and
  writes. Memory addresses are 16 bits and go on the bus low byte first.

  Both firmware revisions of this driver build the same frames. The I2C
  bus is not modelled: each operation takes whether its one transaction
  succeeded (and, for reads, the bytes it returned) and returns the
  transaction it asked for together with its result.
 */
module Eeprom {
  import opened Options

  datatype Memory = User | System

  datatype St25dvError = ReadError | WriteError | SequentialWritePayloadTooSmall

  datatype EResult<T> = Ok(value: T) | Err(error: St25dvError)

  /** One I2C transaction: a write to `device`, optionally followed by a read of `readLen` bytes. */
  datatype I2cOp =
    | Write(device: bv8, bytes: seq<bv8>)
    | Read(device: bv8, readLen: nat)
    | WriteRead(device: bv8, bytes: seq<bv8>, readLen: nat)

  /** The transaction an operation asked for, and its result. */
  datatype I2cExchange<T> = I2cExchange(op: I2cOp, result: EResult<T>)

  /** The 7-bit address that switches the RF interface on. */
  const RF_ON: bv8 := 0x51
  /** The 7-bit address that switches the RF interface off. */
  const RF_OFF: bv8 := 0x55

  /** `device_select_code`: the 7-bit address of each memory area. */
  function DeviceSelectCode(m: Memory): (c: bv8)
    ensures c < 0x80
    ensures c == (if m == User then 0x53 else 0x57)
  {
    match m
    case User => 0x53
    case System => 0x57
  }

  /** The two bytes of a memory address as sent: low byte, then high byte. */
  function LeBytes(a: bv16): (b: seq<bv8>)
    ensures |b| == 2
  {
    [(a & 0xFF) as bv8, (a >> 8) as bv8]
  }

  /** The address two bytes sent low byte first stand for. */
  function FromLeBytes(b: seq<bv8>): bv16
    requires |b| == 2
  {
    (b[0] as bv16) | ((b[1] as bv16) << 8)
  }

  /** The result of a write transaction: `WriteError` when the bus reports a failure. */
  function WriteResult(busOk: bool): (r: EResult<()>)
    ensures r.Ok? <==> busOk
    ensures r.Err? ==> r.error == WriteError
  {
    if busOk then Ok(()) else Err(WriteError)
  }

  /** `rf_on`: an empty write to the RF-on address. */
  function RfOn(busOk: bool): (x: I2cExchange<()>)
    ensures x.op == Write(RF_ON, [])
    ensures x.result == WriteResult(busOk)
  {
    I2cExchange(Write(RF_ON, []), WriteResult(busOk))
  }

  /** `rf_off`: an empty write to the RF-off address. */
  function RfOff(busOk: bool): (x: I2cExchange<()>)
    ensures x.op == Write(RF_OFF, [])
    ensures x.result == WriteResult(busOk)
  {
    I2cExchange(Write(RF_OFF, []), WriteResult(busOk))
  }

  /**
    `sequential_current_read`: reads `n` bytes from the memory's current
    address; `rx` is what the bus returned, `None` on failure.
   */
  function SequentialCurrentRead(m: Memory, n: nat, rx: Option<seq<bv8>>): (x: I2cExchange<seq<bv8>>)
    requires rx.Some? ==> |rx.value| == n
    ensures x.op == Read(DeviceSelectCode(m), n)
    ensures x.result.Ok? <==> rx.Some?
    ensures x.result.Ok? ==> x.result.value == rx.value && |x.result.value| == n
    ensures x.result.Err? ==> x.result.error == ReadError
  {
    match rx
    case None => I2cExchange(Read(DeviceSelectCode(m), n), Err(ReadError))
    case Some(bytes) => I2cExchange(Read(DeviceSelectCode(m), n), Ok(bytes))
  }

  /** `current_address_read`: one byte from the current address. */
  function CurrentAddressRead(m: Memory, rx: Option<seq<bv8>>): (x: I2cExchange<bv8>)
    requires rx.Some? ==> |rx.value| == 1
    ensures x.op == Read(DeviceSelectCode(m), 1)
    ensures x.result.Ok? <==> rx.Some?
    ensures x.result.Ok? ==> x.result.value == rx.value[0]
    ensures x.result.Err? ==> x.result.error == ReadError
  {
    var r := SequentialCurrentRead(m, 1, rx);
    match r.result
    case Err(e) => I2cExchange(r.op, Err(e))
    case Ok(bytes) => I2cExchange(r.op, Ok(bytes[0]))
  }

  /**
    `sequential_random_read`: writes the 2-byte address, then reads `n`
    bytes, in one transaction.
   */
  function SequentialRandomRead(m: Memory, addr: bv16, n: nat, rx: Option<seq<bv8>>): (x: I2cExchange<seq<bv8>>)
    requires rx.Some? ==> |rx.value| == n
    ensures x.op.WriteRead? && x.op.device == DeviceSelectCode(m) && x.op.readLen == n
    ensures |x.op.bytes| == 2 && FromLeBytes(x.op.bytes) == addr
    ensures x.result.Ok? <==> rx.Some?
    ensures x.result.Ok? ==> x.result.value == rx.value
    ensures x.result.Err? ==> x.result.error == ReadError
  {
    LeRoundTrip(addr);
    var op := WriteRead(DeviceSelectCode(m), LeBytes(addr), n);
    match rx
    case None => I2cExchange(op, Err(ReadError))
    case Some(bytes) => I2cExchange(op, Ok(bytes))
  }

  /** `random_address_read`: one byte from address `addr`. */
  function RandomAddressRead(m: Memory, addr: bv16, rx: Option<seq<bv8>>): (x: I2cExchange<bv8>)
    requires rx.Some? ==> |rx.value| == 1
    ensures x.op == SequentialRandomRead(m, addr, 1, rx).op
    ensures x.result.Ok? <==> rx.Some?
    ensures x.result.Ok? ==> x.result.value == rx.value[0]
    ensures x.result.Err? ==> x.result.error == ReadError
  {
    var r := SequentialRandomRead(m, addr, 1, rx);
    match r.result
    case Err(e) => I2cExchange(r.op, Err(e))
    case Ok(bytes) => I2cExchange(r.op, Ok(bytes[0]))
  }

  /**
    The `n`-byte payload of a sequential write: the address low byte
    first, then the data, then zeros up to `n` bytes.
   */
  function SequentialPayload(addr: bv16, data: seq<bv8>, n: nat): (p: seq<bv8>)
    requires |data| + 2 <= n
    ensures |p| == n
  {
    LeBytes(addr) + data + seq(n - 2 - |data|, _ => 0)
  }

  /**
    The payload as `sequential_write` fills it: a zeroed buffer of `n`
    bytes, the address in the first two, and each data byte copied in
    turn behind them.
   */
  method FillPayload(addr: bv16, data: seq<bv8>, n: nat) returns (p: seq<bv8>)
    requires |data| + 2 <= n
    ensures |p| == n
    ensures p[..2] == LeBytes(addr)
    ensures forall i | 0 <= i < |data| :: p[2 + i] == data[i]
    ensures forall i | 2 + |data| <= i < n :: p[i] == 0
    ensures p == SequentialPayload(addr, data, n)
  {
    p := seq(n, _ => 0);
    p := p[0 := LeBytes(addr)[0]][1 := LeBytes(addr)[1]];
    var k := 1;
    for i := 0 to |data|
      invariant k == i + 1
      invariant |p| == n
      invariant p[..2] == LeBytes(addr)
      invariant forall j | 0 <= j < i :: p[2 + j] == data[j]
      invariant forall j | 2 + i <= j < n :: p[j] == 0
    {
      k := k + 1;
      p := p[k := data[i]];
    }
    FillPayloadIsSequentialPayload(addr, data, n, p);
  }

  /** The buffer `sequential_write` fills is the payload defined above. */
  lemma FillPayloadIsSequentialPayload(addr: bv16, data: seq<bv8>, n: nat, p: seq<bv8>)
    requires |data| + 2 <= n && |p| == n
    requires p[..2] == LeBytes(addr)
    requires forall i | 0 <= i < |data| :: p[2 + i] == data[i]
    requires forall i | 2 + |data| <= i < n :: p[i] == 0
    ensures p == SequentialPayload(addr, data, n)
  {
  }

  /**
    `sequential_write::<N>`: refuses, before touching the bus, a buffer of
    `n` bytes too small for the address and the data; otherwise sends the
    whole `n`-byte buffer in one write.
   */
  function SequentialWrite(m: Memory, addr: bv16, data: seq<bv8>, n: nat, busOk: bool): (x: Option<I2cExchange<()>>)
    ensures x.None? <==> n < |data| + 2
    ensures x.Some? ==> x.value.op == Write(DeviceSelectCode(m), SequentialPayload(addr, data, n))
    ensures x.Some? ==> x.value.result == WriteResult(busOk)
  {
    if n < |data| + 2 then None
    else Some(I2cExchange(Write(DeviceSelectCode(m), SequentialPayload(addr, data, n)), WriteResult(busOk)))
  }

  /**
    `sequential_write::<N>` as its documentation describes it: the same
    refusal, but the buffer is cut to the address and the data, so no zero
    beyond the data is written.
   */
  function SequentialWriteShortened(m: Memory, addr: bv16, data: seq<bv8>, n: nat, busOk: bool)
    : (x: Option<I2cExchange<()>>)
    ensures x.None? <==> n < |data| + 2
    ensures x.Some? ==> x.value.op.Write? && x.value.op.device == DeviceSelectCode(m)
    ensures x.Some? ==> |x.value.op.bytes| == |data| + 2
    ensures x.Some? ==> FromLeBytes(x.value.op.bytes[..2]) == addr && x.value.op.bytes[2..] == data
    ensures x.Some? ==> x.value.result == WriteResult(busOk)
  {
    if n < |data| + 2 then None
    else
      LeRoundTrip(addr);
      Some(I2cExchange(Write(DeviceSelectCode(m), LeBytes(addr) + data), WriteResult(busOk)))
  }

  /** The result of `sequential_write::<N>`, including the refusal. */
  function SequentialWriteResult(m: Memory, addr: bv16, data: seq<bv8>, n: nat, busOk: bool): (r: EResult<()>)
    ensures r.Ok? <==> |data| + 2 <= n && busOk
    ensures n < |data| + 2 ==> r == Err(SequentialWritePayloadTooSmall)
  {
    match SequentialWrite(m, addr, data, n, busOk)
    case None => Err(SequentialWritePayloadTooSmall)
    case Some(x) => x.result
  }

  /** `byte_write`: the address, low byte first, and the one data byte. */
  function ByteWrite(m: Memory, addr: bv16, data: bv8, busOk: bool): (x: I2cExchange<()>)
    ensures x.op.Write? && x.op.device == DeviceSelectCode(m)
    ensures |x.op.bytes| == 3 && FromLeBytes(x.op.bytes[..2]) == addr && x.op.bytes[2] == data
    ensures x.result == WriteResult(busOk)
  {
    LeRoundTrip(addr);
    var a := LeBytes(addr);
    assert [a[0], a[1], data][..2] == a;
    I2cExchange(Write(DeviceSelectCode(m), [a[0], a[1], data]), WriteResult(busOk))
  }

  // ----- properties -----

  /** An address survives being sent low byte first. */
  lemma LeRoundTrip(a: bv16)
    ensures FromLeBytes(LeBytes(a)) == a
  {
  }

  /** Any two bytes are the little-endian form of the address they stand for. */
  lemma LeBytesOfAddress(b: seq<bv8>)
    requires |b| == 2
    ensures LeBytes(FromLeBytes(b)) == b
  {
    LowByteOfJoin(b[0], b[1]);
    HighByteOfJoin(b[0], b[1]);
  }

  lemma LowByteOfJoin(lo: bv8, hi: bv8)
    ensures (((lo as bv16) | ((hi as bv16) << 8)) & 0xFF) as bv8 == lo
  {
  }

  lemma HighByteOfJoin(lo: bv8, hi: bv8)
    ensures (((lo as bv16) | ((hi as bv16) << 8)) >> 8) as bv8 == hi
  {
  }

  /** The four 7-bit addresses the driver uses are pairwise different. */
  lemma AddressesDistinct()
    ensures DeviceSelectCode(User) != DeviceSelectCode(System)
    ensures RF_ON != RF_OFF
    ensures {RF_ON, RF_OFF} !! {DeviceSelectCode(User), DeviceSelectCode(System)}
  {
  }

  /**
    The whole `n`-byte buffer goes on the bus: when the data is shorter,
    the zeros after it are written to the memory as well.
   */
  lemma TrailingZerosAreWritten(m: Memory, addr: bv16, data: seq<bv8>, n: nat, busOk: bool)
    requires |data| + 2 <= n
    ensures |SequentialWrite(m, addr, data, n, busOk).value.op.bytes| == n
    ensures forall i | 2 + |data| <= i < n :: SequentialWrite(m, addr, data, n, busOk).value.op.bytes[i] == 0
  {
  }

  /**
    The write as coded sends the documented bytes followed by the zeros
    that fill the rest of the `n`-byte buffer.
   */
  lemma WrittenIsShortenedPlusZeros(m: Memory, addr: bv16, data: seq<bv8>, n: nat, busOk: bool)
    requires |data| + 2 <= n
    ensures SequentialWrite(m, addr, data, n, busOk).value.op.bytes ==
              SequentialWriteShortened(m, addr, data, n, busOk).value.op.bytes + seq(n - 2 - |data|, _ => 0)
    ensures SequentialWrite(m, addr, data, n, busOk).value.result == SequentialWriteShortened(m, addr, data, n, busOk).value.result
  {
  }

  /**
    One data byte at address 0x0010 with a 4-byte buffer: the code writes
    a zero to address 0x0011 as well, which the documented write does not.
   */
  lemma ExtraZeroWritten()
    ensures SequentialWrite(User, 0x0010, [0xAB], 4, true).value.op.bytes == [0x10, 0x00, 0xAB, 0x00]
    ensures SequentialWriteShortened(User, 0x0010, [0xAB], 4, true).value.op.bytes == [0x10, 0x00, 0xAB]
  {
    assert LeBytes(0x0010) == [0x10, 0x00];
  }

  /** The data sits behind the address in the sequential-write payload. */
  lemma PayloadCarriesData(addr: bv16, data: seq<bv8>, n: nat)
    requires |data| + 2 <= n
    ensures FromLeBytes(SequentialPayload(addr, data, n)[..2]) == addr
    ensures SequentialPayload(addr, data, n)[2..2 + |data|] == data
  {
    var p := SequentialPayload(addr, data, n);
    assert p[..2] == LeBytes(addr);
    LeRoundTrip(addr);
  }

  /** A one-byte sequential write with a 3-byte buffer sends the same bytes as `byte_write`. */
  lemma ByteWriteIsShortSequentialWrite(m: Memory, addr: bv16, data: bv8, busOk: bool)
    ensures SequentialWrite(m, addr, [data], 3, busOk) == Some(ByteWrite(m, addr, data, busOk))
  {
    var a := LeBytes(addr);
    assert SequentialPayload(addr, [data], 3) == [a[0], a[1], data];
  }
}

=== FILE: exchange.dfy ===
/**
  Register reads and writes over a half-duplex UART in read-back mode, as
  done by the canonical driver (`TMC2209::read_register` and
  `write_register`) and by the stand-alone crate's `Datagram::read` and
  `Datagram::write`. The frames, buffer sizes and checks are the same.
  The crate sends the counter request with `write` rather than
  `write_all`, waits 5 ms after a read's receive, and names its errors
  `TimeoutError` and `WriteError`; none of these shows in the model.

  In read-back mode every byte sent is also received, so a read receives
  its own 4-byte request ahead of the 8-byte reply, and a write-then-check
  receives the 8-byte write frame and the 4-byte counter request ahead of
  the reply. A write is judged by the interface transmission counter IFCNT,
  which the driver increments on every accepted write and which wraps from
  255 to 0.
 */
module Exchange {
  import opened Registers
  import opened Codec
  import opened Transport
  import opened Pins

  /** Bytes the driver echoes back ahead of a read reply: the read request. */
  const READ_ECHO: nat := 4
  /** Bytes echoed ahead of the counter reply after a write: write frame and counter request. */
  const WRITE_ECHO: nat := 12

  /** The frames one driver operation handed to the bus, and its result. */
  datatype Trace<T> = Trace(sent: seq<seq<bv8>>, result: Result<T>)

  /** The bus outcomes of one read: the request's transmission and the 12-byte receive. */
  datatype ReadIo = ReadIo(tx: TxOutcome, rx: RxOutcome)

  /**
    The bus outcomes of one write: the counter read before, the write
    frame's and the counter request's transmissions, and the 20-byte receive.
   */
  datatype WriteIo = WriteIo(before: ReadIo, frameTx: TxOutcome, requestTx: TxOutcome, rx: RxOutcome)

  predicate ReadIoFits(io: ReadIo) {
    Delivers(io.rx, READ_ECHO + 8)
  }

  predicate WriteIoFits(io: WriteIo) {
    ReadIoFits(io.before) && Delivers(io.rx, WRITE_ECHO + 8)
  }

  /**
    A write counts as applied when the counter moved up, or wrapped from
    255 to 0.
   */
  predicate WriteApplied(before: bv8, after: bv8) {
    after > before || (before == 0xFF && after == 0)
  }

  /**
    Reads register `k` of the driver at `addr`. The request is built first
    (an address above 3 fails before anything is sent); a failed send is a
    UART error, a receive that times out is a timeout, and otherwise the 8
    bytes after the echoed request are decoded. Only the timeout of the
    receive is checked, so a receive that fails in time still has its
    buffer decoded.
   */
  function Read(k: Kind, addr: bv8, io: ReadIo): (t: Trace<Register>)
    requires ReadIoFits(io)
    ensures addr > MAX_DRIVER_ADDR <==> t.sent == []
    ensures addr > MAX_DRIVER_ADDR ==> t.result == Err(InvalidDriverAddress(addr))
    ensures addr <= MAX_DRIVER_ADDR ==> t.sent == [ReadRequest(k, addr).value]
    ensures t.result.Ok? <==>
              addr <= MAX_DRIVER_ADDR && io.tx.Sent? && io.rx.Received? && IsReplyFor(k, io.rx.bytes[READ_ECHO..])
    ensures t.result.Ok? ==> KindOf(t.result.value) == k
    ensures addr <= MAX_DRIVER_ADDR && io.tx.TxFailed? ==> t.result == Err(UsartError)
    ensures addr <= MAX_DRIVER_ADDR && io.tx.Sent? && io.rx.TimedOut? ==> t.result == Err(Timeout)
    ensures addr <= MAX_DRIVER_ADDR && io.tx.Sent? && io.rx.Received? ==>
              t.result == FromDatagram(k, io.rx.bytes[READ_ECHO..])
  {
    var request := ReadRequest(k, addr);
    if request.Err? then
      Trace([], Err(request.error))
    else if io.tx.TxFailed? then
      Trace([request.value], Err(UsartError))
    else if io.rx.TimedOut? then
      Trace([request.value], Err(Timeout))
    else
      Trace([request.value], FromDatagram(k, io.rx.bytes[READ_ECHO..]))
  }

  /** The counter value carried by an IFCNT register. */
  function CountOf(r: Register): bv8
    requires KindOf(r) == IFCNT
  {
    r.cnt
  }

  /**
    The steps of a write after the counter has been read as `b`: sends
    the write frame and a counter request, and decodes the counter reply
    found after the 12 echoed bytes.
   */
  function SendAndCheck(v: Register, addr: bv8, b: bv8, io: WriteIo): (t: Trace<()>)
    requires addr <= MAX_DRIVER_ADDR && Delivers(io.rx, WRITE_ECHO + 8)
    ensures 1 <= |t.sent| <= 2 && t.sent[0] == AsWriteRequest(v, addr).value
    ensures |t.sent| == 2 <==> io.frameTx.Sent?
    ensures t.result.Ok? <==>
              io.frameTx.Sent? && io.requestTx.Sent? && io.rx.Received? &&
              IsReplyFor(IFCNT, io.rx.bytes[WRITE_ECHO..]) &&
              WriteApplied(b, CountOf(FromDatagram(IFCNT, io.rx.bytes[WRITE_ECHO..]).value))
    ensures |t.sent| == 2 ==> t.sent[1] == ReadRequest(IFCNT, addr).value
    ensures io.frameTx.TxFailed? || io.requestTx.TxFailed? ==> t.result == Err(UsartError)
    ensures io.frameTx.Sent? && io.requestTx.Sent? && io.rx.TimedOut? ==> t.result == Err(Timeout)
    ensures io.frameTx.Sent? && io.requestTx.Sent? && io.rx.Received? &&
            FromDatagram(IFCNT, io.rx.bytes[WRITE_ECHO..]).Err? ==>
              t.result == Err(FromDatagram(IFCNT, io.rx.bytes[WRITE_ECHO..]).error)
    ensures io.frameTx.Sent? && io.requestTx.Sent? && io.rx.Received? &&
            FromDatagram(IFCNT, io.rx.bytes[WRITE_ECHO..]).Ok? &&
            !WriteApplied(b, CountOf(FromDatagram(IFCNT, io.rx.bytes[WRITE_ECHO..]).value)) ==>
              t.result == Err(WriteError(b, CountOf(FromDatagram(IFCNT, io.rx.bytes[WRITE_ECHO..]).value)))
  {
    var frame := AsWriteRequest(v, addr).value;
    if io.frameTx.TxFailed? then
      Trace([frame], Err(UsartError))
    else
      var sent := [frame, ReadRequest(IFCNT, addr).value];
      if io.requestTx.TxFailed? then
        Trace(sent, Err(UsartError))
      else if io.rx.TimedOut? then
        Trace(sent, Err(Timeout))
      else
        var after := FromDatagram(IFCNT, io.rx.bytes[WRITE_ECHO..]);
        if after.Err? then
          Trace(sent, Err(after.error))
        else if WriteApplied(b, CountOf(after.value)) then
          Trace(sent, Ok(()))
        else
          Trace(sent, Err(WriteError(b, CountOf(after.value))))
  }

  /**
    Writes `v` to the driver at `addr` and checks, through IFCNT, that the
    driver accepted it. The counter is read first; when that fails, its
    error is returned and the write frame is never sent.
   */
  function Write(v: Register, addr: bv8, io: WriteIo): (t: Trace<()>)
    requires WriteIoFits(io)
    ensures Read(IFCNT, addr, io.before).result.Err? ==>
              t == Trace(Read(IFCNT, addr, io.before).sent, Err(Read(IFCNT, addr, io.before).result.error))
    ensures Read(IFCNT, addr, io.before).result.Ok? ==>
              |t.sent| >= 2 && t.sent[0] == ReadRequest(IFCNT, addr).value && t.sent[1] == AsWriteRequest(v, addr).value
    ensures Read(IFCNT, addr, io.before).result.Ok? ==>
              t.sent == Read(IFCNT, addr, io.before).sent +
                        SendAndCheck(v, addr, CountOf(Read(IFCNT, addr, io.before).result.value), io).sent &&
              t.result == SendAndCheck(v, addr, CountOf(Read(IFCNT, addr, io.before).result.value), io).result
  {
    var before := Read(IFCNT, addr, io.before);
    if before.result.Err? then
      Trace(before.sent, Err(before.result.error))
    else
      var rest := SendAndCheck(v, addr, CountOf(before.result.value), io);
      Trace(before.sent + rest.sent, rest.result)
  }

  // ----- the canonical driver -----

  /** A canonical driver: its pins, its UART address and whether it has a UART. */
  datatype Driver = Driver(pins: PinState, addr: bv8, hasUsart: bool)

  /** `new_no_usart_interruptable`: address 0 and no UART. */
  function NewNoUsart(pins: PinState): (d: Driver)
    ensures d.pins == pins && d.addr == 0 && !d.hasUsart
  {
    Driver(pins, 0, false)
  }

  /**
    `new_async_usart_interruptable` and `new_async_usart_no_interrupt`:
    a driver on a UART, refused for an address above 3.
   */
  function NewAsyncUsart(pins: PinState, addr: bv8): (r: Result<Driver>)
    ensures r.Err? <==> addr > MAX_DRIVER_ADDR
    ensures r.Err? ==> r.error == InvalidDriverAddress(addr)
    ensures r.Ok? ==> r.value.pins == pins && r.value.addr == addr && r.value.hasUsart
  {
    if addr > MAX_DRIVER_ADDR then Err(InvalidDriverAddress(addr)) else Ok(Driver(pins, addr, true))
  }

  /**
    `read_register`: the register is replaced by the value read, or left
    as it was when the read fails. The source unwraps the UART, so a driver
    without one cannot read.
   */
  function ReadRegister(d: Driver, register: Register, io: ReadIo): (p: (Register, Trace<()>))
    requires d.hasUsart && ReadIoFits(io)
    ensures p.1.sent == Read(KindOf(register), d.addr, io).sent
    ensures p.1.result.Ok? <==> Read(KindOf(register), d.addr, io).result.Ok?
    ensures p.1.result.Ok? ==> p.0 == Read(KindOf(register), d.addr, io).result.value
    ensures p.1.result.Err? ==> p.0 == register && p.1.result.error == Read(KindOf(register), d.addr, io).result.error
  {
    var t := Read(KindOf(register), d.addr, io);
    match t.result
    case Ok(v) => (v, Trace(t.sent, Ok(())))
    case Err(e) => (register, Trace(t.sent, Err(e)))
  }

  // ----- properties of reads -----

  /**
    A driver that answers with its reply frame for the value it holds is
    read correctly, whatever bytes precede the reply.
   */
  lemma ReadFromAnsweringDriver(v: Register, addr: bv8, echo: seq<bv8>)
    requires Fits(v) && addr <= MAX_DRIVER_ADDR && |echo| == READ_ECHO
    ensures Read(KindOf(v), addr, ReadIo(Sent, Received(echo + ReplyFrame(KindOf(v), Pack(v))))).result == Ok(v)
  {
    var f := ReplyFrame(KindOf(v), Pack(v));
    assert (echo + f)[READ_ECHO..] == f;
    ReplyRoundTrip(v);
  }

  /** The echoed request bytes play no part in the outcome of a read. */
  lemma ReadIgnoresEcho(k: Kind, addr: bv8, tx: TxOutcome, a: seq<bv8>, b: seq<bv8>)
    requires |a| == |b| == READ_ECHO + 8 && a[READ_ECHO..] == b[READ_ECHO..]
    ensures Read(k, addr, ReadIo(tx, Received(a))) == Read(k, addr, ReadIo(tx, Received(b)))
  {
  }

  /** Seven zero bytes have CRC 0. */
  lemma ZeroCrc()
    ensures Crc.Crc8([0, 0, 0, 0, 0, 0, 0]) == 0
  {
    Crc.UnrollByte(0, 0);
    var z: seq<bv8> := [0, 0, 0, 0, 0, 0, 0];
    assert Crc.Absorb(0, z[6..]) == 0;
    assert Crc.Absorb(0, z[5..]) == 0;
    assert Crc.Absorb(0, z[4..]) == 0;
    assert Crc.Absorb(0, z[3..]) == 0;
    assert Crc.Absorb(0, z[2..]) == 0;
    assert Crc.Absorb(0, z[1..]) == 0;
  }

  /**
    A receive that fails without timing out leaves the buffer as it was
    initialised, all zeros. That buffer passes the CRC check (the CRC of
    zeros is zero) and is reported as a wrong sync byte 0, not as a UART
    error.
   */
  lemma UntouchedBufferReadsAsSyncError(k: Kind, addr: bv8)
    requires addr <= MAX_DRIVER_ADDR
    ensures Read(k, addr, ReadIo(Sent, Received(seq(READ_ECHO + 8, _ => 0)))).result == Err(InvalidSyncByte(0))
  {
    var buffer: seq<bv8> := seq(READ_ECHO + 8, _ => 0);
    var d := buffer[READ_ECHO..];
    ZeroCrc();
    assert d[0..7] == [0, 0, 0, 0, 0, 0, 0];
    assert d[..7] == [0, 0, 0, 0, 0, 0, 0];
  }

  // ----- properties of writes -----

  /** One accepted write, which moves the counter by one modulo 256, always passes the check. */
  lemma SingleIncrementApplied(c: bv8)
    ensures WriteApplied(c, c + 1)
  {
  }

  /** An unchanged counter, or one that moved down other than by wrapping, fails the check. */
  lemma NoIncrementRejected(b: bv8, a: bv8)
    requires a <= b && !(b == 0xFF && a == 0)
    ensures !WriteApplied(b, a)
  {
  }

  /** Counter pairs seen before and after a write. */
  lemma WriteAppliedVectors()
    ensures WriteApplied(5, 6) && WriteApplied(5, 9) && WriteApplied(0xFF, 0)
    ensures !WriteApplied(5, 5) && !WriteApplied(6, 5) && !WriteApplied(0xFF, 1)
  {
  }

  /**
    A write succeeds exactly when the counter read, both transmissions and
    the counter reply succeed and the counter moved as an applied write
    moves it.
   */
  lemma WriteSucceedsIff(v: Register, addr: bv8, io: WriteIo)
    requires WriteIoFits(io)
    ensures Write(v, addr, io).result.Ok? <==>
              Read(IFCNT, addr, io.before).result.Ok? && io.frameTx.Sent? && io.requestTx.Sent? &&
              io.rx.Received? && IsReplyFor(IFCNT, io.rx.bytes[WRITE_ECHO..]) &&
              WriteApplied(CountOf(Read(IFCNT, addr, io.before).result.value),
                           CountOf(FromDatagram(IFCNT, io.rx.bytes[WRITE_ECHO..]).value))
  {
  }

  /**
    When the counter reply is valid but shows no applied write, the error
    carries both counter values.
   */
  lemma RejectedWriteReportsCounts(v: Register, addr: bv8, io: WriteIo)
    requires WriteIoFits(io)
    requires Read(IFCNT, addr, io.before).result.Ok? && io.frameTx.Sent? && io.requestTx.Sent?
    requires io.rx.Received? && IsReplyFor(IFCNT, io.rx.bytes[WRITE_ECHO..])
    requires !WriteApplied(CountOf(Read(IFCNT, addr, io.before).result.value), CountOf(FromDatagram(IFCNT, io.rx.bytes[WRITE_ECHO..]).value))
    ensures Write(v, addr, io).result ==
              Err(WriteError(CountOf(Read(IFCNT, addr, io.before).result.value), CountOf(FromDatagram(IFCNT, io.rx.bytes[WRITE_ECHO..]).value)))
  {
  }

  /**
    When the counter cannot be read first, the write frame is never sent:
    the only frame on the bus is the 4-byte counter request, if any.
   */
  lemma NoWriteWithoutCounter(v: Register, addr: bv8, io: WriteIo)
    requires WriteIoFits(io) && Read(IFCNT, addr, io.before).result.Err?
    ensures |Write(v, addr, io).sent| <= 1
    ensures forall f | f in Write(v, addr, io).sent :: |f| == 4 && f[2] < WRITE_OFFSET
  {
  }

  /** A counter reply showing one more accepted write passes the check after the counter read `c`. */
  lemma CheckAgainstCountingDriver(v: Register, addr: bv8, c: bv8, echo: seq<bv8>, io: WriteIo)
    requires addr <= MAX_DRIVER_ADDR && |echo| == WRITE_ECHO
    requires io.frameTx.Sent? && io.requestTx.Sent? && io.rx == Received(echo + ReplyFrame(IFCNT, Pack(IfCnt(c + 1))))
    ensures SendAndCheck(v, addr, c, io).result == Ok(())
  {
    var f := ReplyFrame(IFCNT, Pack(IfCnt(c + 1)));
    assert io.rx.bytes[WRITE_ECHO..] == f;
    ReplyRoundTrip(IfCnt(c + 1));
  }

  /**
    A driver that answers both counter requests faithfully and counts the
    write in between makes the write succeed, also when its counter wraps.
   */
  lemma WriteToCountingDriver(v: Register, addr: bv8, c: bv8, echo1: seq<bv8>, echo2: seq<bv8>, io: WriteIo)
    requires addr <= MAX_DRIVER_ADDR && |echo1| == READ_ECHO && |echo2| == WRITE_ECHO
    requires io.before == ReadIo(Sent, Received(echo1 + ReplyFrame(IFCNT, Pack(IfCnt(c)))))
    requires io.frameTx.Sent? && io.requestTx.Sent? && io.rx == Received(echo2 + ReplyFrame(IFCNT, Pack(IfCnt(c + 1))))
    ensures Write(v, addr, io).result == Ok(())
  {
    ReadFromAnsweringDriver(IfCnt(c), addr, echo1);
    CheckAgainstCountingDriver(v, addr, c, echo2, io);
  }
}

=== FILE: flash.dfy ===
/**
  The W25Q64 serial flash on SPI: the three read-status-register
  instructions and the decoding of the status byte each returns.

  A status byte is eight flags, bit 0 the least significant. Each status
  register names its eight bits; decoding and encoding are inverse.
 */
module Flash {
  import opened Pins
  import opened Options

  datatype Instruction = ReadStatusRegister1 | ReadStatusRegister2 | ReadStatusRegister3

  /** `to_byte`: the opcode of each instruction. */
  function ToByte(i: Instruction): (b: bv8)
    ensures b in {0x05, 0x35, 0x15}
  {
    match i
    case ReadStatusRegister1 => 0x05
    case ReadStatusRegister2 => 0x35
    case ReadStatusRegister3 => 0x15
  }

  /** The instruction an opcode stands for, if any. */
  function InstructionOf(b: bv8): (i: Option<Instruction>)
    ensures i.Some? ==> ToByte(i.value) == b
  {
    if b == 0x05 then Some(ReadStatusRegister1)
    else if b == 0x35 then Some(ReadStatusRegister2)
    else if b == 0x15 then Some(ReadStatusRegister3)
    else None
  }

  /** Bit `k` of a status byte. */
  function Bit(b: bv8, k: bv8): bool
    requires k < 8
  {
    (b >> k) & 1 == 1
  }

  /** A flag as the bit value it sets at position `k`. */
  function Flag(f: bool, k: bv8): (b: bv8)
    requires k < 8
  {
    if f then 1 << k else 0
  }

  /** The eight flags of a status byte, bit 0 first. */
  datatype Flags = Flags(b0: bool, b1: bool, b2: bool, b3: bool, b4: bool, b5: bool, b6: bool, b7: bool)

  /** Splits a status byte into its flags. */
  function FlagsOf(b: bv8): (f: Flags)
  {
    Flags(Bit(b, 0), Bit(b, 1), Bit(b, 2), Bit(b, 3), Bit(b, 4), Bit(b, 5), Bit(b, 6), Bit(b, 7))
  }

  /** Joins eight flags into a status byte. */
  function ByteOf(f: Flags): bv8 {
    Flag(f.b0, 0) | Flag(f.b1, 1) | Flag(f.b2, 2) | Flag(f.b3, 3) |
    Flag(f.b4, 4) | Flag(f.b5, 5) | Flag(f.b6, 6) | Flag(f.b7, 7)
  }

  /** Status register 1: busy, write enable, block protect 0-2, top/bottom, sector, complement. */
  datatype RegisterOne = RegisterOne(busy: bool, writeEnable: bool, blockProtect0: bool, blockProtect1: bool,
                                     blockProtect2: bool, topBottomProtect: bool, sectorBlockProtect: bool,
                                     complementProtect: bool)

  /** Status register 2: register lock, quad enable, reserved, lock bits 1-3, complement, suspend. */
  datatype RegisterTwo = RegisterTwo(statusRegisterLock: bool, quadEnable: bool, reserved: bool, lockBit1: bool,
                                     lockBit2: bool, lockBit3: bool, complementProtect: bool, suspendStatus: bool)

  /** Status register 3: reserved bits, write-protect selection and output driver strength. */
  datatype RegisterThree = RegisterThree(reserved0: bool, reserved1: bool, writeProtectSelection: bool,
                                         reserved3: bool, reserved4: bool, outputDriverStrength0: bool,
                                         outputDriverStrength1: bool, reserved7: bool)

  function DecodeOne(b: bv8): (r: RegisterOne)
    ensures r.busy == Bit(b, 0) && r.writeEnable == Bit(b, 1)
    ensures r.blockProtect0 == Bit(b, 2) && r.blockProtect1 == Bit(b, 3) && r.blockProtect2 == Bit(b, 4)
    ensures r.topBottomProtect == Bit(b, 5) && r.sectorBlockProtect == Bit(b, 6)
    ensures r.complementProtect == Bit(b, 7)
  {
    var f := FlagsOf(b);
    RegisterOne(f.b0, f.b1, f.b2, f.b3, f.b4, f.b5, f.b6, f.b7)
  }

  function EncodeOne(r: RegisterOne): bv8 {
    ByteOf(Flags(r.busy, r.writeEnable, r.blockProtect0, r.blockProtect1, r.blockProtect2,
                 r.topBottomProtect, r.sectorBlockProtect, r.complementProtect))
  }

  function DecodeTwo(b: bv8): (r: RegisterTwo)
    ensures r.statusRegisterLock == Bit(b, 0) && r.quadEnable == Bit(b, 1) && r.reserved == Bit(b, 2)
    ensures r.lockBit1 == Bit(b, 3) && r.lockBit2 == Bit(b, 4) && r.lockBit3 == Bit(b, 5)
    ensures r.complementProtect == Bit(b, 6) && r.suspendStatus == Bit(b, 7)
  {
    var f := FlagsOf(b);
    RegisterTwo(f.b0, f.b1, f.b2, f.b3, f.b4, f.b5, f.b6, f.b7)
  }

  function EncodeTwo(r: RegisterTwo): bv8 {
    ByteOf(Flags(r.statusRegisterLock, r.quadEnable, r.reserved, r.lockBit1, r.lockBit2,
                 r.lockBit3, r.complementProtect, r.suspendStatus))
  }

  function DecodeThree(b: bv8): (r: RegisterThree)
    ensures r.reserved0 == Bit(b, 0) && r.reserved1 == Bit(b, 1) && r.writeProtectSelection == Bit(b, 2)
    ensures r.reserved3 == Bit(b, 3) && r.reserved4 == Bit(b, 4) && r.reserved7 == Bit(b, 7)
    ensures r.outputDriverStrength0 == Bit(b, 5) && r.outputDriverStrength1 == Bit(b, 6)
  {
    var f := FlagsOf(b);
    RegisterThree(f.b0, f.b1, f.b2, f.b3, f.b4, f.b5, f.b6, f.b7)
  }

  function EncodeThree(r: RegisterThree): bv8 {
    ByteOf(Flags(r.reserved0, r.reserved1, r.writeProtectSelection, r.reserved3, r.reserved4,
                 r.outputDriverStrength0, r.outputDriverStrength1, r.reserved7))
  }

  /** What one instruction does on the bus: the chip-select levels in order, the bytes sent, the bytes read. */
  datatype SpiExchange = SpiExchange(chipSelect: seq<Level>, sent: seq<bv8>, received: seq<bv8>)

  /**
    `send_instruction`: selects the chip (CS low), sends the opcode, reads
    six bytes, deselects (CS high). `response` is what the bus returned;
    the source unwraps every bus call, so there is no failure.
   */
  function SendInstruction(i: Instruction, response: seq<bv8>): (x: SpiExchange)
    requires |response| == 6
    ensures x.chipSelect == [Low, High]
    ensures x.sent == [ToByte(i)] && x.received == response
  {
    SpiExchange([Low, High], [ToByte(i)], response)
  }

  /** `read_status_register_one`: the first byte of the response, decoded. */
  function ReadStatusRegisterOne(response: seq<bv8>): (r: RegisterOne)
    requires |response| == 6
    ensures EncodeOne(r) == response[0]
  {
    ByteFlagsRoundTrip(response[0]);
    DecodeOne(SendInstruction(ReadStatusRegister1, response).received[0])
  }

  /** `read_status_register_two`: the first byte of the response, decoded. */
  function ReadStatusRegisterTwo(response: seq<bv8>): (r: RegisterTwo)
    requires |response| == 6
    ensures EncodeTwo(r) == response[0]
  {
    ByteFlagsRoundTrip(response[0]);
    DecodeTwo(SendInstruction(ReadStatusRegister2, response).received[0])
  }

  /** `read_status_register_three`: the first byte of the response, decoded. */
  function ReadStatusRegisterThree(response: seq<bv8>): (r: RegisterThree)
    requires |response| == 6
    ensures EncodeThree(r) == response[0]
  {
    ByteFlagsRoundTrip(response[0]);
    DecodeThree(SendInstruction(ReadStatusRegister3, response).received[0])
  }

  // ----- properties -----

  /** The three opcodes are different, and each names its instruction. */
  lemma OpcodesIdentifyInstructions(i: Instruction)
    ensures InstructionOf(ToByte(i)) == Some(i)
  {
  }

  /** The datasheet's opcodes: 0x05, 0x35 and 0x15 read status registers 1, 2 and 3. */
  lemma OpcodeVectors()
    ensures ToByte(ReadStatusRegister1) == 0x05
    ensures ToByte(ReadStatusRegister2) == 0x35
    ensures ToByte(ReadStatusRegister3) == 0x15
  {
  }

  /** Splitting a byte into flags and joining them again gives the byte back. */
  lemma ByteFlagsRoundTrip(b: bv8)
    ensures ByteOf(FlagsOf(b)) == b
  {
  }

  /** Joining flags into a byte and splitting it again gives the flags back. */
  lemma FlagsByteRoundTrip(f: Flags)
    ensures FlagsOf(ByteOf(f)) == f
  {
  }

  /** Decoding and encoding status register 1 are inverse. */
  lemma RegisterOneBijection(b: bv8, r: RegisterOne)
    ensures EncodeOne(DecodeOne(b)) == b
    ensures DecodeOne(EncodeOne(r)) == r
  {
    ByteFlagsRoundTrip(b);
    FlagsByteRoundTrip(Flags(r.busy, r.writeEnable, r.blockProtect0, r.blockProtect1, r.blockProtect2,
                             r.topBottomProtect, r.sectorBlockProtect, r.complementProtect));
  }

  /** Decoding and encoding status register 2 are inverse. */
  lemma RegisterTwoBijection(b: bv8, r: RegisterTwo)
    ensures EncodeTwo(DecodeTwo(b)) == b
    ensures DecodeTwo(EncodeTwo(r)) == r
  {
    ByteFlagsRoundTrip(b);
    FlagsByteRoundTrip(Flags(r.statusRegisterLock, r.quadEnable, r.reserved, r.lockBit1, r.lockBit2,
                             r.lockBit3, r.complementProtect, r.suspendStatus));
  }

  /** Decoding and encoding status register 3 are inverse. */
  lemma RegisterThreeBijection(b: bv8, r: RegisterThree)
    ensures EncodeThree(DecodeThree(b)) == b
    ensures DecodeThree(EncodeThree(r)) == r
  {
    ByteFlagsRoundTrip(b);
    FlagsByteRoundTrip(Flags(r.reserved0, r.reserved1, r.writeProtectSelection, r.reserved3, r.reserved4,
                             r.outputDriverStrength0, r.outputDriverStrength1, r.reserved7));
  }

  /** Only the first of the six response bytes is decoded. */
  lemma OnlyFirstByteDecoded(a: seq<bv8>, b: seq<bv8>)
    requires |a| == 6 && |b| == 6 && a[0] == b[0]
    ensures ReadStatusRegisterOne(a) == ReadStatusRegisterOne(b)
    ensures ReadStatusRegisterTwo(a) == ReadStatusRegisterTwo(b)
    ensures ReadStatusRegisterThree(a) == ReadStatusRegisterThree(b)
  {
  }
}

=== FILE: legacy.dfy ===
/**
  The first driver revision, `src/tmc2209`: a blocking UART shared behind
  a mutex, a register enum without TCOOLTHRS, request and register
  datagrams, and a driver that remembers the direction it last set.

  Its reads take exactly the 8 reply bytes (no read-back echo) and check
  nothing but their CRC. Its writes are confirmed by IFCNT strictly
  increasing. Every UART failure is reported as `Uart`.
 */
module Legacy {
  import opened Crc
  import opened Registers
  import opened Transport
  import opened Pins
  import Codec
  import Exchange

  /** The registers the first revision knows: all but TCOOLTHRS. */
  type LegacyKind = k: Kind | InLegacyCatalog(k) witness GCONF

  datatype LegacyError = InvalidCrc | NoStaticsRemaining | Uart | WriteError | TestUartError

  datatype Outcome<T> = Ok(value: T) | Err(error: LegacyError)

  /** The frames one operation handed to the bus, and its result. */
  datatype LegacyTrace<T> = LegacyTrace(sent: seq<seq<bv8>>, result: Outcome<T>)

  /**
    The bus outcomes of one read: the flush before it, the request's
    transmission and the 8-byte receive. A failure of any of them is a
    UART error.
   */
  datatype LegacyReadIo = LegacyReadIo(flush: TxOutcome, tx: TxOutcome, rx: RxOutcome)

  predicate LegacyReadIoFits(io: LegacyReadIo) {
    Delivers(io.rx, 8)
  }

  // ----- datagrams -----

  /**
    `TMC2209RequestDatagram::new`: the sealed read request. The address is
    not checked: any byte is placed in the frame.
   */
  function RequestDatagram(address: bv8, k: LegacyKind): (f: seq<bv8>)
    ensures |f| == 4 && CrcValid(f)
    ensures f[0] == Codec.SYNC_BYTE && f[1] == address && KindAt(f[2]).Some? && KindAt(f[2]).value == k
  {
    KindAtReadRegAddr(k);
    Codec.Seal([Codec.SYNC_BYTE, address, ReadRegAddr(k)])
  }

  /** `TMC2209RegisterDatagram::new`: the sealed write frame carrying `payload`. */
  function RegisterDatagram(address: bv8, k: LegacyKind, payload: seq<bv8>): (f: seq<bv8>)
    requires |payload| == 4
    ensures |f| == 8 && CrcValid(f)
    ensures f[0] == Codec.SYNC_BYTE && f[1] == address && f[3..7] == payload
    ensures f[2] >= WRITE_OFFSET && KindAt(f[2] - WRITE_OFFSET).Some? && KindAt(f[2] - WRITE_OFFSET).value == k
  {
    var a := WriteRegAddr(k);
    KindAtWriteRegAddr(k, a);
    var f := Codec.Seal([Codec.SYNC_BYTE, address, a, payload[0], payload[1], payload[2], payload[3]]);
    Codec.PayloadOfSealed(f, payload);
    f
  }

  /** `crc()` of a request or register datagram: its last byte. */
  function CrcByte(f: seq<bv8>): (c: bv8)
    requires |f| >= 1
    ensures CrcValid(f) ==> c == Crc8(f[..|f| - 1])
  {
    f[|f| - 1]
  }

  /** `is_valid`: accepts a reply exactly when its last byte is the CRC of the first seven. */
  function IsValid(d: seq<bv8>): (r: Outcome<()>)
    requires |d| == 8
    ensures r.Ok? <==> CrcValid(d)
    ensures r.Err? ==> r.error == InvalidCrc
  {
    assert d[..7] == d[0..7];
    if d[7] == Crc8(d[0..7]) then Ok(()) else Err(InvalidCrc)
  }

  /** `payload`: bytes 3 to 6 of a register datagram. */
  function Payload(d: seq<bv8>): (p: seq<bv8>)
    requires |d| == 8
    ensures |p| == 4 && p == d[3..7]
  {
    [d[3], d[4], d[5], d[6]]
  }

  // ----- the driver -----

  /** A first-revision driver: its address, its pins and the direction it records. */
  datatype LegacyDriver = LegacyDriver(address: bv8, pins: PinState, direction: Direction)

  /**
    `read_from_register`: flushes, sends the request, reads 8 bytes and
    returns them when their CRC is right. Nothing else in the reply is
    checked.
   */
  function ReadFromRegister(drv: LegacyDriver, k: LegacyKind, io: LegacyReadIo): (t: LegacyTrace<seq<bv8>>)
    requires LegacyReadIoFits(io)
    ensures t.sent == if io.flush.Sent? then [RequestDatagram(drv.address, k)] else []
    ensures t.result.Ok? <==> io.flush.Sent? && io.tx.Sent? && io.rx.Received? && CrcValid(io.rx.bytes)
    ensures t.result.Ok? ==> t.result.value == io.rx.bytes
    ensures t.result.Err? && !(io.flush.Sent? && io.tx.Sent? && io.rx.Received?) ==> t.result.error == Uart
    ensures t.result.Err? && io.flush.Sent? && io.tx.Sent? && io.rx.Received? ==> t.result.error == InvalidCrc
  {
    var request := RequestDatagram(drv.address, k);
    if io.flush.TxFailed? then
      LegacyTrace([], Err(Uart))
    else if io.tx.TxFailed? then
      LegacyTrace([request], Err(Uart))
    else if io.rx.TimedOut? then
      LegacyTrace([request], Err(Uart))
    else
      var reply := io.rx.bytes;
      match IsValid(reply)
      case Err(e) => LegacyTrace([request], Err(e))
      case Ok(_) => LegacyTrace([request], Ok(reply))
  }

  /**
    `read_ioin`, `read_gconf`, `read_ifcnt`, `read_pwm_conf`: reads
    register `k` and unpacks its payload.
   */
  function ReadKind(drv: LegacyDriver, k: LegacyKind, io: LegacyReadIo): (t: LegacyTrace<Register>)
    requires LegacyReadIoFits(io)
    ensures t.sent == ReadFromRegister(drv, k, io).sent
    ensures t.result.Ok? <==> ReadFromRegister(drv, k, io).result.Ok?
    ensures t.result.Ok? ==> KindOf(t.result.value) == k && Fits(t.result.value)
    ensures t.result.Ok? ==> t.result.value == Unpack(k, WordOf(io.rx.bytes[3..7]))
  {
    var r := ReadFromRegister(drv, k, io);
    match r.result
    case Err(e) => LegacyTrace(r.sent, Err(e))
    case Ok(d) => LegacyTrace(r.sent, Ok(Unpack(k, WordOf(Payload(d)))))
  }

  /**
    `read_chop_conf` as written: it requests IFCNT and unpacks that
    register's payload as a CHOPCONF value.
   */
  function ReadChopConfAsWritten(drv: LegacyDriver, io: LegacyReadIo): (t: LegacyTrace<Register>)
    requires LegacyReadIoFits(io)
    ensures t.sent == ReadFromRegister(drv, IFCNT, io).sent
    ensures t.result.Ok? ==> t.result.value.ChopConf?
  {
    var r := ReadFromRegister(drv, IFCNT, io);
    match r.result
    case Err(e) => LegacyTrace(r.sent, Err(e))
    case Ok(d) => LegacyTrace(r.sent, Ok(Unpack(CHOPCONF, WordOf(Payload(d)))))
  }

  /** `read_chop_conf` as intended: requests CHOPCONF itself. */
  function ReadChopConf(drv: LegacyDriver, io: LegacyReadIo): (t: LegacyTrace<Register>)
    requires LegacyReadIoFits(io)
    ensures t.sent == ReadFromRegister(drv, CHOPCONF, io).sent
    ensures t.result.Ok? ==> t.result.value.ChopConf?
  {
    ReadKind(drv, CHOPCONF, io)
  }

  /** The counter check of the first revision: the counter must have strictly increased. */
  predicate StrictlyIncreased(before: bv8, after: bv8) {
    after > before
  }

  /**
    `write_to_register`: reads IFCNT, sends the write frame carrying the
    raw payload `msg`, reads IFCNT again, and reports `WriteError` unless
    the counter strictly increased.
   */
  function WriteToRegister(drv: LegacyDriver, k: LegacyKind, msg: seq<bv8>,
                           before: LegacyReadIo, frameTx: TxOutcome, after: LegacyReadIo): (t: LegacyTrace<()>)
    requires |msg| == 4 && LegacyReadIoFits(before) && LegacyReadIoFits(after)
    ensures t.result.Ok? <==>
              ReadKind(drv, IFCNT, before).result.Ok? && frameTx.Sent? && ReadKind(drv, IFCNT, after).result.Ok? &&
              StrictlyIncreased(ReadKind(drv, IFCNT, before).result.value.cnt, ReadKind(drv, IFCNT, after).result.value.cnt)
    ensures ReadKind(drv, IFCNT, before).result.Err? ==> t.result == Err(ReadKind(drv, IFCNT, before).result.error)
    ensures ReadKind(drv, IFCNT, before).result.Ok? ==>
              |t.sent| >= 2 && t.sent[0] == RequestDatagram(drv.address, IFCNT) &&
              t.sent[1] == RegisterDatagram(drv.address, k, msg)
    ensures ReadKind(drv, IFCNT, before).result.Ok? && frameTx.TxFailed? ==> t.result == Err(Uart)
    ensures ReadKind(drv, IFCNT, before).result.Ok? && frameTx.Sent? && ReadKind(drv, IFCNT, after).result.Err? ==>
              t.result == Err(ReadKind(drv, IFCNT, after).result.error)
    ensures ReadKind(drv, IFCNT, before).result.Ok? && frameTx.Sent? && ReadKind(drv, IFCNT, after).result.Ok? &&
            !StrictlyIncreased(ReadKind(drv, IFCNT, before).result.value.cnt, ReadKind(drv, IFCNT, after).result.value.cnt) ==>
              t.result == Err(WriteError)
  {
    var b := ReadKind(drv, IFCNT, before);
    if b.result.Err? then
      LegacyTrace(b.sent, Err(b.result.error))
    else
      var frame := RegisterDatagram(drv.address, k, msg);
      if frameTx.TxFailed? then
        LegacyTrace(b.sent + [frame], Err(Uart))
      else
        var a := ReadKind(drv, IFCNT, after);
        var sent := b.sent + [frame] + a.sent;
        if a.result.Err? then
          LegacyTrace(sent, Err(a.result.error))
        else if StrictlyIncreased(b.result.value.cnt, a.result.value.cnt) then
          LegacyTrace(sent, Ok(()))
        else
          LegacyTrace(sent, Err(WriteError))
  }

  /** The direction a driver records, given GCONF's `shaft` bit and the level of DIR. */
  function DirectionOf(shaft: bool, dir: Level): (d: Direction)
    ensures d == Clockwise <==> shaft == (dir == High)
  {
    if shaft == (dir == High) then Clockwise else CounterClockwise
  }

  /** The level `set_direction` drives DIR to, given GCONF's `shaft` bit. */
  function DirLevel(shaft: bool, d: Direction): (l: Level)
    ensures DirectionOf(shaft, l) == d
  {
    match (shaft, d)
    case (true, Clockwise) => High
    case (true, CounterClockwise) => Low
    case (false, Clockwise) => Low
    case (false, CounterClockwise) => High
  }

  /**
    `test_uart`: reads IOIN and refuses a reply whose always-zero fields
    are not zero.
   */
  function TestUart(drv: LegacyDriver, io: LegacyReadIo): (t: LegacyTrace<()>)
    requires LegacyReadIoFits(io)
    ensures t.result.Ok? <==>
              ReadKind(drv, IOIN, io).result.Ok? &&
              ReadKind(drv, IOIN, io).result.value.zero1 == 0 && ReadKind(drv, IOIN, io).result.value.zero2 == 0
    ensures ReadKind(drv, IOIN, io).result.Ok? && t.result.Err? ==> t.result.error == TestUartError
  {
    var r := ReadKind(drv, IOIN, io);
    if r.result.Err? then
      LegacyTrace(r.sent, Err(r.result.error))
    else if r.result.value.zero1 != 0 || r.result.value.zero2 != 0 then
      LegacyTrace(r.sent, Err(TestUartError))
    else
      LegacyTrace(r.sent, Ok(()))
  }

  /** The driver `init` builds before talking to the chip: EN high, STEP and DIR low, direction clockwise. */
  function InitialDriver(address: bv8): LegacyDriver {
    LegacyDriver(address, PinState(High, Low, Low), Clockwise)
  }

  /**
    `init`: EN high (disabled), STEP and DIR low, then the UART test and a
    GCONF read; the recorded direction is the one the low DIR level means
    under the `shaft` bit read.
   */
  function Init(address: bv8, ioinIo: LegacyReadIo, gconfIo: LegacyReadIo): (r: Outcome<LegacyDriver>)
    requires LegacyReadIoFits(ioinIo) && LegacyReadIoFits(gconfIo)
    ensures r.Ok? <==>
              TestUart(InitialDriver(address), ioinIo).result.Ok? && ReadKind(InitialDriver(address), GCONF, gconfIo).result.Ok?
    ensures TestUart(InitialDriver(address), ioinIo).result.Err? ==>
              r == Err(TestUart(InitialDriver(address), ioinIo).result.error)
    ensures TestUart(InitialDriver(address), ioinIo).result.Ok? && ReadKind(InitialDriver(address), GCONF, gconfIo).result.Err? ==>
              r == Err(ReadKind(InitialDriver(address), GCONF, gconfIo).result.error)
    ensures r.Ok? ==> r.value.address == address && r.value.pins == PinState(High, Low, Low)
    ensures r.Ok? ==> (r.value.direction == Clockwise <==>
              !ReadKind(InitialDriver(address), GCONF, gconfIo).result.value.shaft)
  {
    var drv := InitialDriver(address);
    var test := TestUart(drv, ioinIo);
    if test.result.Err? then
      Err(test.result.error)
    else
      var g := ReadKind(drv, GCONF, gconfIo);
      if g.result.Err? then
        Err(g.result.error)
      else
        Ok(drv.(direction := DirectionOf(g.result.value.shaft, drv.pins.dir)))
  }

  /**
    `set_direction`: reads GCONF; when that fails nothing changes.
    Otherwise records `d` and drives DIR to the level that means `d`
    under the `shaft` bit read.
   */
  function SetDirection(drv: LegacyDriver, d: Direction, io: LegacyReadIo): (p: (LegacyDriver, Outcome<()>))
    requires LegacyReadIoFits(io)
    ensures p.1.Ok? <==> ReadKind(drv, GCONF, io).result.Ok?
    ensures p.1.Err? ==> p.0 == drv
    ensures p.1.Ok? ==> p.0.direction == d && p.0.address == drv.address
    ensures p.1.Ok? ==> p.0.pins.en == drv.pins.en && p.0.pins.step == drv.pins.step
    ensures p.1.Ok? ==> DirectionOf(ReadKind(drv, GCONF, io).result.value.shaft, p.0.pins.dir) == d
  {
    var g := ReadKind(drv, GCONF, io);
    if g.result.Err? then
      (drv, Err(g.result.error))
    else
      var level := DirLevel(g.result.value.shaft, d);
      (drv.(direction := d, pins := drv.pins.(dir := level)), Ok(()))
  }

  /** `get_direction`: the recorded direction. */
  function GetDirection(drv: LegacyDriver): Direction {
    drv.direction
  }

  // ----- properties -----

  /**
    `get_direction` after `set_direction`: a set that worked reads back as
    the direction set; one that failed leaves the direction read before.
   */
  lemma SetThenGetDirection(drv: LegacyDriver, d: Direction, io: LegacyReadIo)
    requires LegacyReadIoFits(io)
    ensures SetDirection(drv, d, io).1.Ok? ==> GetDirection(SetDirection(drv, d, io).0) == d
    ensures SetDirection(drv, d, io).1.Err? ==> GetDirection(SetDirection(drv, d, io).0) == GetDirection(drv)
  {
  }

  /** The direction recorded from a DIR level, and the level driven for a direction, are inverse. */
  lemma DirectionLevelInverse(shaft: bool, l: Level)
    ensures DirLevel(shaft, DirectionOf(shaft, l)) == l
  {
  }

  /**
    After `init`, setting the direction it recorded leaves DIR where it
    was, when GCONF reads the same: `init` and `set_direction` agree on
    what a level means.
   */
  lemma InitAgreesWithSetDirection(address: bv8, ioinIo: LegacyReadIo, gconfIo: LegacyReadIo)
    requires LegacyReadIoFits(ioinIo) && LegacyReadIoFits(gconfIo)
    requires Init(address, ioinIo, gconfIo).Ok?
    ensures SetDirection(Init(address, ioinIo, gconfIo).value, Init(address, ioinIo, gconfIo).value.direction, gconfIo).0 ==
              Init(address, ioinIo, gconfIo).value
  {
  }

  /** Every write frame the driver builds passes its own validity check, and carries its payload back out. */
  lemma RegisterDatagramIsValid(address: bv8, k: LegacyKind, payload: seq<bv8>)
    requires |payload| == 4
    ensures IsValid(RegisterDatagram(address, k, payload)) == Ok(())
    ensures Payload(RegisterDatagram(address, k, payload)) == payload
    ensures CrcByte(RegisterDatagram(address, k, payload)) == Crc8(RegisterDatagram(address, k, payload)[..7])
  {
  }

  /** A reply is accepted whatever register, address or sync byte it names, as long as its CRC is right. */
  lemma AnyCrcValidReplyAccepted(drv: LegacyDriver, k: LegacyKind, d: seq<bv8>)
    requires |d| == 8 && CrcValid(d)
    ensures ReadFromRegister(drv, k, LegacyReadIo(Sent, Sent, Received(d))).result == Ok(d)
  {
  }

  /**
    A driver answering the request it receives with its reply frame for
    that register: read as written, CHOPCONF is the IFCNT word unpacked as
    CHOPCONF fields, sent under the IFCNT address 0x02.
   */
  lemma ChopConfAsWrittenReadsIfCnt(drv: LegacyDriver, ifcnt: bv32)
    ensures ReadChopConfAsWritten(drv, LegacyReadIo(Sent, Sent, Received(Codec.ReplyFrame(IFCNT, ifcnt)))).sent[0][2] == 0x02
    ensures ReadChopConfAsWritten(drv, LegacyReadIo(Sent, Sent, Received(Codec.ReplyFrame(IFCNT, ifcnt)))).result ==
              Ok(Unpack(CHOPCONF, ifcnt))
  {
    var f := Codec.ReplyFrame(IFCNT, ifcnt);
    var p := BytesOf(ifcnt);
    Codec.PayloadOfSealed(f, p);
    WordOfBytesOf(ifcnt);
    assert Payload(f) == p;
  }

  /**
    The same driver holding CHOPCONF value `v`: read as intended, the
    request names CHOPCONF (0x6C) and the value comes back.
   */
  lemma ChopConfReadsChopConf(drv: LegacyDriver, v: Register)
    requires v.ChopConf? && Fits(v)
    ensures ReadChopConf(drv, LegacyReadIo(Sent, Sent, Received(Codec.ReplyFrame(CHOPCONF, Pack(v))))).sent[0][2] == 0x6C
    ensures ReadChopConf(drv, LegacyReadIo(Sent, Sent, Received(Codec.ReplyFrame(CHOPCONF, Pack(v))))).result == Ok(v)
  {
    var w := Pack(v);
    var f := Codec.ReplyFrame(CHOPCONF, w);
    var p := BytesOf(w);
    Codec.PayloadOfSealed(f, p);
    WordOfBytesOf(w);
    UnpackPack(v);
  }

  /**
    The two counter checks disagree only when the counter wraps from 255
    to 0: the first revision then reports a failed write that the later
    revisions accept.
   */
  lemma CounterChecksDisagreeOnlyAtWrap(b: bv8, a: bv8)
    ensures StrictlyIncreased(b, a) != Exchange.WriteApplied(b, a) <==> b == 0xFF && a == 0
  {
  }

  /** An accepted write moves the counter by one; at 255 the strict check rejects it. */
  lemma StrictCheckRejectsWrap(c: bv8)
    ensures StrictlyIncreased(c, c + 1) <==> c != 0xFF
    ensures Exchange.WriteApplied(c, c + 1)
  {
  }

  /**
    A driver whose counter moves from `c` to `c + 1` below the wrap: the
    write frame goes out second and the write is reported applied.
   */
  lemma CountingDriverWriteSucceeds(drv: LegacyDriver, k: LegacyKind, msg: seq<bv8>, c: bv8,
                                    before: LegacyReadIo, after: LegacyReadIo)
    requires |msg| == 4 && c != 0xFF
    requires before == LegacyReadIo(Sent, Sent, Received(Codec.ReplyFrame(IFCNT, Pack(IfCnt(c)))))
    requires after == LegacyReadIo(Sent, Sent, Received(Codec.ReplyFrame(IFCNT, Pack(IfCnt(c + 1)))))
    ensures WriteToRegister(drv, k, msg, before, Sent, after).result == Ok(())
    ensures WriteToRegister(drv, k, msg, before, Sent, after).sent[1] == RegisterDatagram(drv.address, k, msg)
  {
    ReadOfAnsweringDriver(drv, IFCNT, IfCnt(c), before);
    ReadOfAnsweringDriver(drv, IFCNT, IfCnt(c + 1), after);
  }

  /**
    A driver answering IOIN with always-zero fields that are zero, and
    GCONF with `g`: `init` succeeds, and records clockwise exactly when
    `shaft` is clear (DIR starts low).
   */
  lemma InitWithAnsweringDriver(address: bv8, ioin: Register, g: Register, ioinIo: LegacyReadIo, gconfIo: LegacyReadIo)
    requires ioin.Ioin? && Fits(ioin) && ioin.zero1 == 0 && ioin.zero2 == 0
    requires g.Gconf? && Fits(g)
    requires ioinIo == LegacyReadIo(Sent, Sent, Received(Codec.ReplyFrame(IOIN, Pack(ioin))))
    requires gconfIo == LegacyReadIo(Sent, Sent, Received(Codec.ReplyFrame(GCONF, Pack(g))))
    ensures Init(address, ioinIo, gconfIo) ==
              Ok(LegacyDriver(address, PinState(High, Low, Low), if g.shaft then CounterClockwise else Clockwise))
  {
    ReadOfAnsweringDriver(InitialDriver(address), IOIN, ioin, ioinIo);
    ReadOfAnsweringDriver(InitialDriver(address), GCONF, g, gconfIo);
  }

  /** A read answered with the reply frame for value `v` of register `k` reads `v`. */
  lemma ReadOfAnsweringDriver(drv: LegacyDriver, k: LegacyKind, v: Register, io: LegacyReadIo)
    requires KindOf(v) == k && Fits(v)
    requires io == LegacyReadIo(Sent, Sent, Received(Codec.ReplyFrame(k, Pack(v))))
    ensures ReadKind(drv, k, io).result == Ok(v)
  {
    var w := Pack(v);
    var f := Codec.ReplyFrame(k, w);
    var p := BytesOf(w);
    Codec.PayloadOfSealed(f, p);
    WordOfBytesOf(w);
    UnpackPack(v);
  }

  /**
    A driver whose counter wraps from 255 to 0 on the write: the write was
    applied, and the first revision reports it as failed.
   */
  lemma WrappedCounterReportedAsFailure(drv: LegacyDriver, k: LegacyKind, msg: seq<bv8>,
                                        before: LegacyReadIo, after: LegacyReadIo)
    requires |msg| == 4
    requires before == LegacyReadIo(Sent, Sent, Received(Codec.ReplyFrame(IFCNT, Pack(IfCnt(0xFF)))))
    requires after == LegacyReadIo(Sent, Sent, Received(Codec.ReplyFrame(IFCNT, Pack(IfCnt(0)))))
    ensures WriteToRegister(drv, k, msg, before, Sent, after).result == Err(WriteError)
  {
    ReadOfAnsweringDriver(drv, IFCNT, IfCnt(0xFF), before);
    ReadOfAnsweringDriver(drv, IFCNT, IfCnt(0), after);
  }
}

=== FILE: options.dfy ===
/** An optional value, shared by every module that may or may not have one. */
module Options {
  datatype Option<T> = None | Some(value: T)
}

=== FILE: pins.dfy ===
/**
  The three output pins of a TMC2209: enable (active low), step and
  direction.

  All driver revisions share these operations: enabling drives EN low
  (power stage on), disabling drives it high, a step toggles STEP, and the
  direction is read back from the level of DIR. The `try_` variants of the
  canonical driver do the same when the pin's lock is free and nothing
  otherwise; whether it is free is a parameter here.
 */
module Pins {

  datatype Level = Low | High

  datatype Direction = Clockwise | CounterClockwise

  datatype PinState = PinState(en: Level, step: Level, dir: Level)

  /** The outcome of taking a pin's lock without waiting. */
  datatype Attempt = Acquired | TryLockError

  /** The other level. */
  function Toggle(l: Level): (m: Level)
    ensures m != l
  {
    if l == High then Low else High
  }

  /** The power stage is on while EN is held low. */
  predicate IsEnabled(p: PinState) {
    p.en == Low
  }

  /** `enable`: power stage on; STEP and DIR untouched. */
  function Enable(p: PinState): (q: PinState)
    ensures IsEnabled(q)
    ensures q.step == p.step && q.dir == p.dir
  {
    p.(en := Low)
  }

  /** `disable`: power stage off; STEP and DIR untouched. */
  function Disable(p: PinState): (q: PinState)
    ensures !IsEnabled(q)
    ensures q.step == p.step && q.dir == p.dir
  {
    p.(en := High)
  }

  /** `step`: toggles STEP; EN and DIR untouched. */
  function Step(p: PinState): (q: PinState)
    ensures q.step != p.step
    ensures q.en == p.en && q.dir == p.dir
  {
    p.(step := Toggle(p.step))
  }

  /** `get_direction`: DIR high reads as clockwise. */
  function GetDirection(p: PinState): (d: Direction)
    ensures d == Clockwise <==> p.dir == High
  {
    if p.dir == High then Clockwise else CounterClockwise
  }

  /** `set_direction`: clockwise drives DIR high, counter-clockwise low; EN and STEP untouched. */
  function SetDirection(p: PinState, d: Direction): (q: PinState)
    ensures GetDirection(q) == d
    ensures q.en == p.en && q.step == p.step
  {
    p.(dir := if d == Clockwise then High else Low)
  }

  /** `try_enable`: enables when the lock is free, otherwise changes nothing. */
  function TryEnable(p: PinState, lockFree: bool): (r: (PinState, Attempt))
    ensures r.1 == Acquired <==> lockFree
    ensures r.0 == if lockFree then Enable(p) else p
  {
    if lockFree then (Enable(p), Acquired) else (p, TryLockError)
  }

  /** `try_disable`: disables when the lock is free, otherwise changes nothing. */
  function TryDisable(p: PinState, lockFree: bool): (r: (PinState, Attempt))
    ensures r.1 == Acquired <==> lockFree
    ensures r.0 == if lockFree then Disable(p) else p
  {
    if lockFree then (Disable(p), Acquired) else (p, TryLockError)
  }

  /** `try_step`: steps when the lock is free, otherwise changes nothing. */
  function TryStep(p: PinState, lockFree: bool): (r: (PinState, Attempt))
    ensures r.1 == Acquired <==> lockFree
    ensures r.0 == if lockFree then Step(p) else p
  {
    if lockFree then (Step(p), Acquired) else (p, TryLockError)
  }

  /** `try_set_direction`: sets the direction when the lock is free, otherwise changes nothing. */
  function TrySetDirection(p: PinState, d: Direction, lockFree: bool): (r: (PinState, Attempt))
    ensures r.1 == Acquired <==> lockFree
    ensures r.0 == if lockFree then SetDirection(p, d) else p
  {
    if lockFree then (SetDirection(p, d), Acquired) else (p, TryLockError)
  }

  /** `try_get_direction`: the direction when the lock is free, otherwise the lock error. */
  function TryGetDirection(p: PinState, lockFree: bool): (r: (Direction, Attempt))
    ensures r.1 == Acquired <==> lockFree
    ensures lockFree ==> r.0 == GetDirection(p)
  {
    if lockFree then (GetDirection(p), Acquired) else (Clockwise, TryLockError)
  }

  // ----- properties -----

  /** Enabling or disabling twice is the same as once, and the last one wins. */
  lemma EnableDisableSettle(p: PinState)
    ensures Enable(Enable(p)) == Enable(p) && Disable(Disable(p)) == Disable(p)
    ensures Enable(Disable(p)) == Enable(p) && Disable(Enable(p)) == Disable(p)
  {
  }

  /** Two steps restore the STEP level. */
  lemma StepTwiceRestores(p: PinState)
    ensures Step(Step(p)) == p
  {
  }

  /** Setting the direction that is read back changes nothing. */
  lemma SetReadDirectionKeepsPins(p: PinState)
    ensures SetDirection(p, GetDirection(p)) == p
  {
  }

  /** Of two direction changes only the last one counts. */
  lemma LastDirectionWins(p: PinState, d: Direction, e: Direction)
    ensures SetDirection(SetDirection(p, d), e) == SetDirection(p, e)
  {
  }
}

=== FILE: registers.dfy ===
/**
  The TMC2209 register catalog: read addresses, write addresses and the
  bit layouts of the 4-byte register payload.

  The payload bytes p0..p3 form one big-endian 32-bit word (p0 is the most
  significant byte) whose bits are counted from the least significant bit
  of p3. A field declared over `bytes = "k"` is read as bits 8k..8k+7 of
  that word. Every field is written masked to the bit range it declares,
  and read back from exactly that range.

  The same layouts, at the same bit positions, appear in all three
  revisions of the driver; the oldest revision has no TCOOLTHRS register.
 */
module Registers {

  import opened Bits
  import opened Options

  /** The offset between a register's read and write address. */
  const WRITE_OFFSET: bv8 := 0x80

  /** The registers the firmware knows, by their datasheet names. */
  datatype Kind =
    | GCONF | GSTAT | IFCNT | NODECONF | IOIN | IHOLD_IRUN | TPOWERDOWN
    | TSTEP | TPWMTHRS | VACTUAL | TCOOLTHRS | CHOPCONF | PWMCONF

  /** The register address sent in a read request. */
  function ReadRegAddr(k: Kind): (a: bv8)
    ensures a < WRITE_OFFSET
  {
    match k
    case GCONF => 0x00
    case GSTAT => 0x01
    case IFCNT => 0x02
    case NODECONF => 0x03
    case IOIN => 0x06
    case IHOLD_IRUN => 0x10
    case TPOWERDOWN => 0x11
    case TSTEP => 0x12
    case TPWMTHRS => 0x13
    case VACTUAL => 0x22
    case TCOOLTHRS => 0x14
    case CHOPCONF => 0x6C
    case PWMCONF => 0x70
  }

  /**
    The register address sent in a write request: the read address plus
    the write offset, a sum that never leaves the byte range.
   */
  function WriteRegAddr(k: Kind): (a: bv8)
    ensures a as int == ReadRegAddr(k) as int + WRITE_OFFSET as int
    ensures a >= WRITE_OFFSET
  {
    ReadRegAddr(k) + WRITE_OFFSET
  }

  /** The register a read address names, if any: the inverse of `ReadRegAddr`. */
  function KindAt(a: bv8): (k: Option<Kind>)
    ensures k.Some? ==> ReadRegAddr(k.value) == a
  {
    if a == 0x00 then Some(GCONF)
    else if a == 0x01 then Some(GSTAT)
    else if a == 0x02 then Some(IFCNT)
    else if a == 0x03 then Some(NODECONF)
    else if a == 0x06 then Some(IOIN)
    else if a == 0x10 then Some(IHOLD_IRUN)
    else if a == 0x11 then Some(TPOWERDOWN)
    else if a == 0x12 then Some(TSTEP)
    else if a == 0x13 then Some(TPWMTHRS)
    else if a == 0x22 then Some(VACTUAL)
    else if a == 0x14 then Some(TCOOLTHRS)
    else if a == 0x6C then Some(CHOPCONF)
    else if a == 0x70 then Some(PWMCONF)
    else None
  }


  /** Every register is found again at its own read address. */
  lemma KindAtReadRegAddr(k: Kind)
    ensures KindAt(ReadRegAddr(k)) == Some(k)
  {
  }

  /** Distinct registers have distinct read addresses. */
  lemma ReadRegAddrInjective(k: Kind, l: Kind)
    requires k != l
    ensures ReadRegAddr(k) != ReadRegAddr(l)
  {
    KindAtReadRegAddr(k);
    KindAtReadRegAddr(l);
  }

  /** Taking the write offset off a write address names the register again. */
  lemma KindAtWriteRegAddr(k: Kind, a: bv8)
    requires a == WriteRegAddr(k)
    ensures a >= WRITE_OFFSET && KindAt(a - WRITE_OFFSET) == Some(k)
  {
  }

  /** No write address is the read address of any register. */
  lemma WriteAddrIsNoReadAddr(k: Kind, l: Kind)
    ensures WriteRegAddr(k) != ReadRegAddr(l)
  {
  }

  /** Register values, one constructor per register struct of the firmware. */
  datatype Register =
    | Gconf(iScaleAnalog: bool, internalRsense: bool, enSpreadcycle: bool, shaft: bool,
            indexOtpw: bool, indexStep: bool, pdnDisable: bool, mstepRegSelect: bool,
            multistepFilt: bool, testMode: bool)
    | GStat(reset: bool, drvErr: bool, uvCp: bool)
    | IfCnt(cnt: bv8)
    | NodeConf(sendDelay: bv8)
    | Ioin(enn: bool, zero1: bv8, ms1: bool, ms2: bool, diag: bool, zero2: bv8,
           pdnUart: bool, step: bool, spreadEn: bool, dir: bool, version: bv8)
    | IHoldIRun(ihold: bv8, irun: bv8, iholdDelay: bv8)
    | TPowerDown(tpowerDown: bv8)
    | TStep(tstep: bv32)
    | TpwmThrs(tpwmThrs: bv32)
    | VActual(vactual: bv32)
    | TCoolThrs(tcoolThrs: bv32)
    | ChopConf(toff: bv8, hstrt: bv8, hend: bv8, tbl: bv8, vsense: bool, mres: bv8,
               intpol: bool, dedge: bool, diss2g: bool, diss2vs: bool)
    | PwmConf(pwmOfs: bv8, pwmGrad: bv8, pwmFreq: bv8, pwmAutoscale: bool,
              pwmAutograd: bool, freewheel0: bool, freewheel1: bool, pwmReg: bv8,
              pwmIlm: bv8)

  /** The register a value belongs to. */
  function KindOf(r: Register): Kind {
    match r
    case Gconf(_, _, _, _, _, _, _, _, _, _) => GCONF
    case GStat(_, _, _) => GSTAT
    case IfCnt(_) => IFCNT
    case NodeConf(_) => NODECONF
    case Ioin(_, _, _, _, _, _, _, _, _, _, _) => IOIN
    case IHoldIRun(_, _, _) => IHOLD_IRUN
    case TPowerDown(_) => TPOWERDOWN
    case TStep(_) => TSTEP
    case TpwmThrs(_) => TPWMTHRS
    case VActual(_) => VACTUAL
    case TCoolThrs(_) => TCOOLTHRS
    case ChopConf(_, _, _, _, _, _, _, _, _, _) => CHOPCONF
    case PwmConf(_, _, _, _, _, _, _, _, _) => PWMCONF
  }

  /** The all-zero value of each register (the firmware's `Default`). */
  function Default(k: Kind): (r: Register)
    ensures KindOf(r) == k
  {
    match k
    case GCONF => Gconf(false, false, false, false, false, false, false, false, false, false)
    case GSTAT => GStat(false, false, false)
    case IFCNT => IfCnt(0)
    case NODECONF => NodeConf(0)
    case IOIN => Ioin(false, 0, false, false, false, 0, false, false, false, false, 0)
    case IHOLD_IRUN => IHoldIRun(0, 0, 0)
    case TPOWERDOWN => TPowerDown(0)
    case TSTEP => TStep(0)
    case TPWMTHRS => TpwmThrs(0)
    case VACTUAL => VActual(0)
    case TCOOLTHRS => TCoolThrs(0)
    case CHOPCONF => ChopConf(0, 0, 0, 0, false, 0, false, false, false, false)
    case PWMCONF => PwmConf(0, 0, 0, false, false, false, false, 0, 0)
  }

  /**
    Every field holds a value its bit range can carry. These are the
    values for which packing loses nothing.
   */
  predicate Fits(r: Register) {
    match r
    case Gconf(_, _, _, _, _, _, _, _, _, _) => true
    case GStat(_, _, _) => true
    case IfCnt(_) => true
    case NodeConf(d) => d < 0x10
    case Ioin(_, z1, _, _, _, z2, _, _, _, _, _) => z1 < 2 && z2 < 2
    case IHoldIRun(h, i, d) => h < 0x20 && i < 0x20 && d < 0x10
    case TPowerDown(_) => true
    case TStep(t) => t < 0x10_0000
    case TpwmThrs(t) => t < 0x10_0000
    case VActual(v) => InI24(v)
    case TCoolThrs(t) => t < 0x10_0000
    case ChopConf(toff, hstrt, hend, tbl, _, mres, _, _, _, _) =>
      toff < 0x10 && hstrt < 0x08 && hend < 0x08 && tbl < 0x04 && mres < 0x10
    case PwmConf(_, _, freq, _, _, _, _, reg, ilm) => freq < 0x02 && reg < 0x10 && ilm < 0x10
  }

  /** The bits of the payload word a register's layout covers. */
  function UsedBits(k: Kind): bv32 {
    match k
    case GCONF => 0x0000_03FF
    case GSTAT => 0x0000_0007
    case IFCNT => 0x0000_00FF
    case NODECONF => 0x0000_0F00
    case IOIN => 0xFF00_03FF
    case IHOLD_IRUN => 0x000F_1F1F
    case TPOWERDOWN => 0x0000_00FF
    case TSTEP => 0x000F_FFFF
    case TPWMTHRS => 0x000F_FFFF
    case VACTUAL => 0x00FF_FFFF
    case TCOOLTHRS => 0x000F_FFFF
    case CHOPCONF => 0xFF03_877F
    case PWMCONF => 0xFF3D_FFFF
  }

  // ----- packing -----

  /** The payload word a register value is written as. */
  function Pack(r: Register): bv32 {
    match r
    case Gconf(b0, b1, b2, b3, b4, b5, b6, b7, b8, b9) =>
      BitOf(b0) | (BitOf(b1) << 1) | (BitOf(b2) << 2) | (BitOf(b3) << 3) | (BitOf(b4) << 4)
      | (BitOf(b5) << 5) | (BitOf(b6) << 6) | (BitOf(b7) << 7) | (BitOf(b8) << 8) | (BitOf(b9) << 9)
    case GStat(b0, b1, b2) => BitOf(b0) | (BitOf(b1) << 1) | (BitOf(b2) << 2)
    case IfCnt(c) => c as bv32
    case NodeConf(d) => (((d as bv32) & 0x0F) << 8)
    case Ioin(enn, z1, ms1, ms2, diag, z2, pdn, step, spread, dir, version) =>
      BitOf(enn) | (((z1 as bv32) & 1) << 1) | (BitOf(ms1) << 2) | (BitOf(ms2) << 3)
      | (BitOf(diag) << 4) | (((z2 as bv32) & 1) << 5) | (BitOf(pdn) << 6) | (BitOf(step) << 7)
      | (BitOf(spread) << 8) | (BitOf(dir) << 9) | ((version as bv32) << 24)
    case IHoldIRun(h, i, d) =>
      ((h as bv32) & 0x1F) | (((i as bv32) & 0x1F) << 8) | (((d as bv32) & 0x0F) << 16)
    case TPowerDown(t) => t as bv32
    case TStep(t) => t & 0x000F_FFFF
    case TpwmThrs(t) => t & 0x000F_FFFF
    case VActual(v) => v & 0x00FF_FFFF
    case TCoolThrs(t) => t & 0x000F_FFFF
    case ChopConf(toff, hstrt, hend, tbl, vsense, mres, intpol, dedge, diss2g, diss2vs) =>
      ((toff as bv32) & 0x0F) | (((hstrt as bv32) & 0x07) << 4) | (((hend as bv32) & 0x07) << 8)
      | (((tbl as bv32) & 0x03) << 15) | (BitOf(vsense) << 17) | (((mres as bv32) & 0x0F) << 24)
      | (BitOf(intpol) << 28) | (BitOf(dedge) << 29) | (BitOf(diss2g) << 30) | (BitOf(diss2vs) << 31)
    case PwmConf(ofs, grad, freq, autoscale, autograd, fw0, fw1, reg, ilm) =>
      (ofs as bv32) | ((grad as bv32) << 8) | (((freq as bv32) & 0x01) << 16)
      | (BitOf(autoscale) << 18) | (BitOf(autograd) << 19) | (BitOf(fw0) << 20) | (BitOf(fw1) << 21)
      | (((reg as bv32) & 0x0F) << 24) | (((ilm as bv32) & 0x0F) << 28)
  }

  /** The register value a payload word is read as. */
  function Unpack(k: Kind, w: bv32): (r: Register)
    ensures KindOf(r) == k
    ensures Fits(r)
  {
    match k
    case GCONF =>
      Gconf(w & 1 != 0, w & 2 != 0, w & 4 != 0, w & 8 != 0, w & 0x10 != 0,
            w & 0x20 != 0, w & 0x40 != 0, w & 0x80 != 0, w & 0x100 != 0, w & 0x200 != 0)
    case GSTAT =>
      GStat(w & 1 != 0, w & 2 != 0, w & 4 != 0)
    case IFCNT =>
      IfCnt(Low8(w))
    case NODECONF =>
      NodeConf(Low8(w >> 8) & 0x0F)
    case IOIN =>
      Ioin(w & 1 != 0, Low8(w >> 1) & 1, w & 4 != 0, w & 8 != 0, w & 0x10 != 0,
           Low8(w >> 5) & 1, w & 0x40 != 0, w & 0x80 != 0, w & 0x100 != 0,
           w & 0x200 != 0, Low8(w >> 24))
    case IHOLD_IRUN =>
      IHoldIRun(Low8(w) & 0x1F, Low8(w >> 8) & 0x1F, Low8(w >> 16) & 0x0F)
    case TPOWERDOWN =>
      TPowerDown(Low8(w))
    case TSTEP =>
      TStep(w & 0x000F_FFFF)
    case TPWMTHRS =>
      TpwmThrs(w & 0x000F_FFFF)
    case VACTUAL =>
      SignExtendInRange(w); VActual(SignExtend24(w))
    case TCOOLTHRS =>
      TCoolThrs(w & 0x000F_FFFF)
    case CHOPCONF =>
      ChopConf(Low8(w) & 0x0F, Low8(w >> 4) & 0x07, Low8(w >> 8) & 0x07,
               Low8(w >> 15) & 0x03, w & 0x2_0000 != 0, Low8(w >> 24) & 0x0F,
               w & 0x1000_0000 != 0, w & 0x2000_0000 != 0, w & 0x4000_0000 != 0,
               w & 0x8000_0000 != 0)
    case PWMCONF =>
      PwmConf(Low8(w), Low8(w >> 8), Low8(w >> 16) & 0x01, w & 0x4_0000 != 0,
              w & 0x8_0000 != 0, w & 0x10_0000 != 0, w & 0x20_0000 != 0,
              Low8(w >> 24) & 0x0F, Low8(w >> 28))
  }

  // ----- round trips, one register at a time -----
  lemma GconfRoundTrip(r: Register)
    requires r.Gconf? && Fits(r)
    ensures Unpack(GCONF, Pack(r)) == r
  {}

  lemma GconfNormalizes(k: Kind, w: bv32)
    requires k == GCONF
    ensures Pack(Unpack(k, w)) == w & UsedBits(k)
  {}
  lemma GStatRoundTrip(r: Register)
    requires r.GStat? && Fits(r)
    ensures Unpack(GSTAT, Pack(r)) == r
  {}

  lemma GStatNormalizes(k: Kind, w: bv32)
    requires k == GSTAT
    ensures Pack(Unpack(k, w)) == w & UsedBits(k)
  {}
  lemma IfCntRoundTrip(r: Register)
    requires r.IfCnt? && Fits(r)
    ensures Unpack(IFCNT, Pack(r)) == r
  {}

  lemma IfCntNormalizes(k: Kind, w: bv32)
    requires k == IFCNT
    ensures Pack(Unpack(k, w)) == w & UsedBits(k)
  {}
  lemma NodeConfRoundTrip(r: Register)
    requires r.NodeConf? && Fits(r)
    ensures Unpack(NODECONF, Pack(r)) == r
  {}

  lemma NodeConfNormalizes(k: Kind, w: bv32)
    requires k == NODECONF
    ensures Pack(Unpack(k, w)) == w & UsedBits(k)
  {}
  lemma IoinRoundTrip(r: Register)
    requires r.Ioin? && Fits(r)
    ensures Unpack(IOIN, Pack(r)) == r
  {}

  lemma IoinNormalizes(k: Kind, w: bv32)
    requires k == IOIN
    ensures Pack(Unpack(k, w)) == w & UsedBits(k)
  {}
  lemma IHoldIRunRoundTrip(r: Register)
    requires r.IHoldIRun? && Fits(r)
    ensures Unpack(IHOLD_IRUN, Pack(r)) == r
  {}

  lemma IHoldIRunNormalizes(k: Kind, w: bv32)
    requires k == IHOLD_IRUN
    ensures Pack(Unpack(k, w)) == w & UsedBits(k)
  {}
  lemma TPowerDownRoundTrip(r: Register)
    requires r.TPowerDown? && Fits(r)
    ensures Unpack(TPOWERDOWN, Pack(r)) == r
  {}

  lemma TPowerDownNormalizes(k: Kind, w: bv32)
    requires k == TPOWERDOWN
    ensures Pack(Unpack(k, w)) == w & UsedBits(k)
  {}
  lemma TStepRoundTrip(r: Register)
    requires r.TStep? && Fits(r)
    ensures Unpack(TSTEP, Pack(r)) == r
  {}

  lemma TStepNormalizes(k: Kind, w: bv32)
    requires k == TSTEP
    ensures Pack(Unpack(k, w)) == w & UsedBits(k)
  {}
  lemma TpwmThrsRoundTrip(r: Register)
    requires r.TpwmThrs? && Fits(r)
    ensures Unpack(TPWMTHRS, Pack(r)) == r
  {}

  lemma TpwmThrsNormalizes(k: Kind, w: bv32)
    requires k == TPWMTHRS
    ensures Pack(Unpack(k, w)) == w & UsedBits(k)
  {}
  lemma VActualRoundTrip(r: Register)
    requires r.VActual? && Fits(r)
    ensures Unpack(VACTUAL, Pack(r)) == r
  {
    var v := r.vactual;
    var w := Pack(r);
    assert w == v & 0x00FF_FFFF;
    SignExtendFixesRange(v);
    SignExtendOfTruncation(v, w);
  }

  lemma SignExtendOfTruncation(v: bv32, w: bv32)
    requires w == v & 0x00FF_FFFF
    ensures SignExtend24(w) == SignExtend24(v)
  {
  }

  lemma VActualNormalizes(k: Kind, w: bv32)
    requires k == VACTUAL
    ensures Pack(Unpack(k, w)) == w & UsedBits(k)
  {
    SignExtendLow(w);
  }
  lemma TCoolThrsRoundTrip(r: Register)
    requires r.TCoolThrs? && Fits(r)
    ensures Unpack(TCOOLTHRS, Pack(r)) == r
  {}

  lemma TCoolThrsNormalizes(k: Kind, w: bv32)
    requires k == TCOOLTHRS
    ensures Pack(Unpack(k, w)) == w & UsedBits(k)
  {}
  lemma ChopConfRoundTrip(r: Register)
    requires r.ChopConf? && Fits(r)
    ensures Unpack(CHOPCONF, Pack(r)) == r
  {}

  lemma ChopConfNormalizes(k: Kind, w: bv32)
    requires k == CHOPCONF
    ensures Pack(Unpack(k, w)) == w & UsedBits(k)
  {}
  lemma PwmConfRoundTrip(r: Register)
    requires r.PwmConf? && Fits(r)
    ensures Unpack(PWMCONF, Pack(r)) == r
  {}

  lemma PwmConfNormalizes(k: Kind, w: bv32)
    requires k == PWMCONF
    ensures Pack(Unpack(k, w)) == w & UsedBits(k)
  {}
  /** A value whose fields fit their bit ranges is read back exactly as written. */
  lemma UnpackPack(r: Register)
    requires Fits(r)
    ensures Unpack(KindOf(r), Pack(r)) == r
  {
    match KindOf(r)
    case GCONF => GconfRoundTrip(r);
    case GSTAT => GStatRoundTrip(r);
    case IFCNT => IfCntRoundTrip(r);
    case NODECONF => NodeConfRoundTrip(r);
    case IOIN => IoinRoundTrip(r);
    case IHOLD_IRUN => IHoldIRunRoundTrip(r);
    case TPOWERDOWN => TPowerDownRoundTrip(r);
    case TSTEP => TStepRoundTrip(r);
    case TPWMTHRS => TpwmThrsRoundTrip(r);
    case VACTUAL => VActualRoundTrip(r);
    case TCOOLTHRS => TCoolThrsRoundTrip(r);
    case CHOPCONF => ChopConfRoundTrip(r);
    case PWMCONF => PwmConfRoundTrip(r);
  }

  /**
    Reading a word and writing the result back keeps exactly the bits the
    register's layout covers and clears all others.
   */
  lemma PackUnpack(k: Kind, w: bv32)
    ensures Pack(Unpack(k, w)) == w & UsedBits(k)
  {
    match k
    case GCONF => GconfNormalizes(k, w);
    case GSTAT => GStatNormalizes(k, w);
    case IFCNT => IfCntNormalizes(k, w);
    case NODECONF => NodeConfNormalizes(k, w);
    case IOIN => IoinNormalizes(k, w);
    case IHOLD_IRUN => IHoldIRunNormalizes(k, w);
    case TPOWERDOWN => TPowerDownNormalizes(k, w);
    case TSTEP => TStepNormalizes(k, w);
    case TPWMTHRS => TpwmThrsNormalizes(k, w);
    case VACTUAL => VActualNormalizes(k, w);
    case TCOOLTHRS => TCoolThrsNormalizes(k, w);
    case CHOPCONF => ChopConfNormalizes(k, w);
    case PWMCONF => PwmConfNormalizes(k, w);
  }

  /** Reading ignores every bit outside the register's layout. */
  lemma UnpackIgnoresUnused(k: Kind, w: bv32)
    ensures Unpack(k, w) == Unpack(k, w & UsedBits(k))
  {
    var r := Unpack(k, w);
    UnpackPack(r);
    PackUnpack(k, w);
  }

  /** Every register starts from a value within its bounds that is written as the zero payload. */
  lemma DefaultIsZero(k: Kind)
    ensures Fits(Default(k)) && Pack(Default(k)) == 0
  {
  }

  /** A value whose fields fit is written with no bit outside its layout. */
  lemma PackInLayout(r: Register)
    requires Fits(r)
    ensures Pack(r) & !UsedBits(KindOf(r)) == 0
  {
    var k := KindOf(r);
    var w := Pack(r);
    UnpackPack(r);
    PackUnpack(k, w);
    MaskedHasNoOtherBits(w, UsedBits(k));
  }

  lemma MaskedHasNoOtherBits(w: bv32, m: bv32)
    ensures (w & m) & !m == 0
  {
  }

  /** Distinct values of one register whose fields fit are written as distinct words. */
  lemma PackInjective(r: Register, s: Register)
    requires KindOf(r) == KindOf(s) && Fits(r) && Fits(s)
    requires Pack(r) == Pack(s)
    ensures r == s
  {
    UnpackPack(r);
    UnpackPack(s);
  }

  // ----- payload bytes -----

  /** The payload word of four bytes, the first byte most significant. */
  function WordOf(p: seq<bv8>): bv32
    requires |p| == 4
  {
    ((p[0] as bv32) << 24) | ((p[1] as bv32) << 16) | ((p[2] as bv32) << 8) | (p[3] as bv32)
  }

  /** The four payload bytes of a word, most significant first. */
  function BytesOf(w: bv32): (p: seq<bv8>)
    ensures |p| == 4
  {
    [Low8(w >> 24), Low8(w >> 16), Low8(w >> 8), Low8(w)]
  }

  lemma WordOfBytesOf(w: bv32)
    ensures WordOf(BytesOf(w)) == w
  {
  }

  lemma BytesOfWordOf(p: seq<bv8>)
    requires |p| == 4
    ensures BytesOf(WordOf(p)) == p
  {
  }

  // ----- declared widths the layouts do not carry -----

  /**
    TCOOLTHRS is declared as a 24-bit integer over the 20-bit range 0..=19:
    a value of the declared width above 20 bits is not read back.
   */
  lemma TCoolThrsLosesHighBits()
    ensures Unpack(TCOOLTHRS, Pack(TCoolThrs(0x10_0000))) == TCoolThrs(0)
  {
  }

  /**
    The PWMCONF field pwm_freq is declared over the range "16..17", which
    covers bit 16 alone: bit 17 of the word is never read.
   */
  lemma PwmFreqIgnoresBit17(w: bv32)
    ensures Unpack(PWMCONF, w | 0x2_0000) == Unpack(PWMCONF, w & !0x2_0000)
  {
    var set17 := w | 0x2_0000;
    var clear17 := w & !0x2_0000;
    UnpackIgnoresUnused(PWMCONF, set17);
    UnpackIgnoresUnused(PWMCONF, clear17);
    Bit17Unused(w, set17, clear17, UsedBits(PWMCONF));
  }

  lemma Bit17Unused(w: bv32, set17: bv32, clear17: bv32, used: bv32)
    requires set17 == w | 0x2_0000 && clear17 == w & !0x2_0000 && used == 0xFF3D_FFFF
    ensures set17 & used == clear17 & used
  {
  }

  /** The registers of the oldest driver revision: all but TCOOLTHRS. */
  predicate InLegacyCatalog(k: Kind) {
    k != TCOOLTHRS
  }
}

=== FILE: transport.dfy ===
/**
  What a serial bus call can do, as seen by the driver code that makes it.

  The bus itself is not modelled. Each operation takes, as parameters, the
  outcome of every bus call it will make, so a model of a driver operation
  is a function of the bytes it is handed and of these outcomes.
 */
module Transport {

  /** The outcome of handing a frame to the bus. */
  datatype TxOutcome = Sent | TxFailed

  /**
    The outcome of filling a receive buffer. `Received` carries the buffer
    as the driver inspects it afterwards; `TimedOut` is a read that did not
    complete in time (or, in revisions without a timeout, failed).
   */
  datatype RxOutcome = Received(bytes: seq<bv8>) | TimedOut

  /** A receive outcome that fills a buffer of exactly `n` bytes. */
  predicate Delivers(rx: RxOutcome, n: nat) {
    rx.Received? ==> |rx.bytes| == n
  }
}
